=== FILE: README.md ===
# A verified model of compiler-cpp's parser and code generator

compiler-cpp compiles a tiny language to x86-64 assembly text. The language has
`exit(expr);`, `let x = expr;`, integer literals, identifiers and `+`. This
project models the two passes between the token stream and the assembly text,
and proves properties about them.

- **Parser.** This is the recursive-descent parser of `src/parser.hpp`. The
  source keeps a cursor inside a `Parser` object. Here every parse function
  takes the token sequence and a cursor, and returns one of three outcomes:
  - `Match(node, next)`, a node and the cursor after it;
  - `NoMatch`, an empty `std::optional` with the cursor left where it was;
  - `Fatal(error)`, one of the places where the source prints a diagnostic and
    calls `exit(EXIT_FAILURE)`.
- **Generator.** This is the code generator of `src/generation.hpp`. Its state
  is `Gen(stackSize, vars, out)`: the compile-time stack counter, the table from
  names to stack slots, and the instructions emitted so far. Each `gen_*` member
  becomes a pure function from one state to the next, or to an error.
  Instructions are a datatype. `Asm.Text` renders them the way the source's
  string stream writes them.
- **Meaning.** An abstract stack machine (`Machine`) reads the instructions.
  A reference semantics of the source language (`Semantics`) says what a
  program means. `Correctness` proves that every program the generator accepts
  compiles to code that exits with the status the program means.
- **Round trip.** `Unparse` renders a syntax tree back to tokens. It proves
  parse-after-render and render-after-parse for the trees the parser builds.

Modules, one per file:

- `common.dfy`: Option and Result.
- `tokens.dfy`: token kinds and tokens. `tokenization.hpp` is not part of this
  model, so a token is a kind plus optional text.
- `ast.dfy`: the syntax tree of `src/parser.hpp:17-83`, and the well-formedness
  of the trees the parser builds.
- `parser.dfy`, `unparse.dfy`: the parser and the round trip.
- `asm.dfy`: instructions, stack-depth accounting and text rendering.
- `generator.dfy`: the generator and its stack accounting.
- `machine.dfy`, `semantics.dfy`, `correctness.dfy`: execution and compiler
  correctness.
- `findings.dfy`: the `let` statement exactly as the source writes it (see
  Findings).
- `compiler.dfy`, `scenarios.dfy`: the two passes composed as `src/main.cpp`
  runs them, and worked programs.

The compiler model uses the corrected `let` binding order: a name may be used
only after its `let` completes, as the `Undeclared identifier` check
(`src/generation.hpp:36-39`) requires of every other name. The code
binds it before, so an initializer can see the name it is defining (see
Findings). Only `Findings.GenStmtAsWritten` and the members built on it follow
`src/generation.hpp:112-113` as written. `Findings.StmtsAsWrittenAgree` shows
the two orders generate the same result for every program in which no `let`
names itself in its initializer.

## Model

| member | source | states |
|---|---|---|
| Parser.Peek | src/parser.hpp:213-221 | There is no token exactly when cursor + offset reaches the end. Otherwise the result is the token at that position. The cursor is an input and is never changed. |
| Parser.Consume | src/parser.hpp:223-226 | Returns the token at the cursor, which `peek` would also return, and advances the cursor by exactly one without passing the end. |
| Parser.TryConsume | src/parser.hpp:239-247 | Succeeds exactly when a next token exists and has the requested kind. It then returns that token and the cursor plus one. Otherwise it returns nothing. |
| Parser.TryConsumeOrFail | src/parser.hpp:228-237 | Never returns an empty result. It succeeds exactly when the next token has the requested kind. Otherwise it fails fatally with the diagnostic for that kind. |
| Parser.ParseTerm | src/parser.hpp:93-112 | Succeeds exactly when the next token is an integer literal or an identifier, consuming just that token and wrapping it in the matching variant. Otherwise it returns nothing. It is never fatal. |
| Parser.ParseExpr | src/parser.hpp:114-145 | Returns nothing exactly when no term starts at the cursor. The only fatal error is a `+` without an expression after it. A match consumes at least one token, never passes the end, builds a tree whose every `+` has a single term on its left, and is not followed by a `+`. |
| Parser.ParseExprShape | src/parser.hpp:114-145 | `term + rest` parses to `Add(term, parse of rest)`, with the cursor where the rest stopped. Without a `+`, the result is the lone term and one token. The parse is fatal exactly when a term and a `+` are present but no expression follows. |
| Parser.ParseStmt | src/parser.hpp:148-191 | Returns nothing exactly when neither the `exit (` nor the `let ident =` lookahead holds. A match advances the cursor, stays within the tokens, ends on a `;`, and builds a well-formed statement. |
| Parser.ParseStmtShape | src/parser.hpp:148-191 | A parsed `exit` is `exit ( expr ) ;`, and a parsed `let` is `let ident = expr ;`. The lookahead picks the branch, and the expression is the one `parse_expr` finds right after the opening tokens. |
| Parser.ParseStmtFatal | src/parser.hpp:155-183 | A statement whose opening tokens are not followed by an expression is fatal ("Invalid expression"). Every fatal result is one of the four diagnostics the statement parser can reach. |
| Parser.ParseStmts | src/parser.hpp:193-206 | On success the cursor equals the token count, every statement is well-formed, and no more statements are produced than tokens remained. |
| Parser.ParseProg | src/parser.hpp:193-206 | A successful parse is a well-formed program. An empty token sequence is the empty program. |
| Parser.ParseProgInvalid | src/parser.hpp:196-203 | A non-empty token sequence that starts no statement fails with "Invalid statement". |
| Parser.ParseStmtsInvalid | src/parser.hpp:196-203 | On any pass of the statement loop, a remaining token that starts no statement fails the parse with "Invalid statement". |
| Unparse.ParseUnparse | src/parser.hpp:114-206 | Rendering any well-formed program to tokens and parsing the result gives back the same program. |
| Unparse.UnparseParse | src/parser.hpp:114-206 | Rendering the program parsed from any canonical token sequence gives back that token sequence, so statements stay in source order and no token is dropped. |
| Unparse.ParseExprTokens | src/parser.hpp:114-145 | An expression's tokens, followed by anything but `+`, parse back to that expression and stop right after it. |
| Unparse.ExprTokensOfParse | src/parser.hpp:114-145 | A parsed expression's rendering is exactly the tokens the parse consumed. |
| Unparse.StmtTokensOfParse | src/parser.hpp:148-191 | A parsed statement's rendering is exactly the tokens the parse consumed. |
| Generator.Push | src/generation.hpp:151-155 | Appends exactly one push of the operand and raises the stack size by one. The bindings are unchanged. |
| Generator.Pop | src/generation.hpp:157-161 | Appends exactly one pop into the register and lowers the stack size by one. The bindings are unchanged. |
| Generator.GenTerm | src/generation.hpp:21-57 | Fails exactly when the term has no text or names an unbound identifier: a token without text gives `MissingValue`, and an unbound name gives "Undeclared identifier" with that name. Otherwise it raises the stack size by one. A literal emits `mov rax, N` then `push rax`. An identifier emits one push from a word-aligned offset from which stack size - 1 - offset / 8 recovers its slot, whatever the slot; the offset is non-negative while the slot is below the stack size. |
| Generator.GenExpr | src/generation.hpp:78-93 | Fails exactly when some term of the expression cannot be resolved. Otherwise the stack size rises by exactly one, the bindings are unchanged, and the output is only appended to. |
| Generator.GenBinExpr | src/generation.hpp:59-76 | Fails exactly when an operand cannot be resolved. Otherwise the stack size rises by exactly one and the bindings are unchanged. |
| Generator.GenBinExprShape | src/generation.hpp:63-72 | The code for `lhs + rhs` is the lhs code, then the rhs code, then `pop rax`, `pop rbx`, `add rax, rbx`, `push rax`. |
| Generator.GenExprCode | src/generation.hpp:21-93 | Any expression's code nets exactly one word and never pops below the depth it started at. When every binding's slot is live, every stack offset it reads is non-negative. |
| Generator.GenBinExprCode | src/generation.hpp:63-72 | Addition code nets one word and never dips below its starting depth, so both pops find a word pushed by the operands. |
| Generator.GenStmt | src/generation.hpp:95-119 | `exit` fails exactly when its expression is unresolvable, and otherwise leaves the stack size and bindings alone. `let` fails on a name already bound. Otherwise it adds exactly one binding, to the slot at the old stack size, and raises the stack size by one. Consistent state (live, distinct slots) stays consistent. |
| Generator.GenExitShape | src/generation.hpp:99-105 | The code of `exit(e);` is e's code followed by `mov rax, 60`, `pop rdi`, `syscall`. |
| Generator.GenStmtCode | src/generation.hpp:95-119 | A statement's code changes the depth by exactly the change in stack size, never pops below the depth it started at, and reads only non-negative offsets while bindings are live. |
| Generator.GenStmts | src/generation.hpp:125-127 | The first statement generates, and its code lies before everything the rest append; applied down the sequence, statements are emitted in source order, by appending only. Consistency is preserved. The stack never shrinks, and no binding is lost. |
| Generator.GenStmtsCode | src/generation.hpp:125-127 | The code of a statement sequence is accounted for. Its net depth equals the change in stack size, and it never pops below the starting depth. From a consistent state, its offsets are non-negative. |
| Generator.GenProg | src/generation.hpp:121-136 | Generation succeeds exactly when every statement generates. The output starts with `global _start` / `_start:` and ends with `mov rax, 60` / `mov rdi, 0` / `syscall`. |
| Generator.GenProgCode | src/generation.hpp:121-136 | A whole generated program never pops an empty stack, and every identifier offset in it is non-negative. |
| Generator.GenProgText | src/generation.hpp:121-136 | The text exists exactly when generation succeeds. It starts with the lines `global _start` and `_start:`, ends with the lines `    mov rax, 60`, `    mov rdi, 0` and `    syscall`, and these two parts do not overlap. |
| Asm.AsSizeT | src/generation.hpp:51 | The offset as an unsigned 64-bit value: unchanged when in range, and raised by 2^64 when negative. |
| Asm.DecimalOfNatToString | src/generation.hpp:51 | Reading back the decimal text printed for an offset gives the same number. |
| Correctness.TermCorrect | src/generation.hpp:21-57 | When the machine agrees with the generator's bindings, a term's code pushes exactly the term's value. For an identifier, that is the value its `let` pushed. |
| Correctness.ExprCorrect | src/generation.hpp:59-93 | When the machine agrees with the bindings, an expression's code runs without halting and pushes exactly the expression's value. |
| Correctness.StmtCorrect | src/generation.hpp:95-119 | A statement the generator accepts never fails. An `exit` statement's code halts with the value of its expression. A `let` statement's code leaves the machine agreeing with the extended bindings. |
| Correctness.StmtsCorrect | src/generation.hpp:121-127 | A statement sequence's code halts with the status of the first `exit` reached. If no `exit` is reached, it leaves the machine agreeing with the final bindings. |
| Correctness.CompiledExitStatus | src/generation.hpp:121-136 | The generated program, started on an empty stack, exits with the status the program means: that of the first `exit` reached, or 0 when none is. |
| Correctness.EpilogueRuns | src/generation.hpp:131-133 | The fall-through epilogue exits with status 0. |
| Findings.GenStmtAsWritten | src/generation.hpp:106-114 | `let` as written rejects a bound name. Otherwise it resolves the initializer against the bindings that already contain the new name, and adds that binding. It only appends to the output. |
| Findings.GenStmtsAsWritten | src/generation.hpp:125-127 | The statement loop over the `let` as written: the first statement generates, and its code lies before everything the rest append. |
| Findings.GenProgAsWritten | src/generation.hpp:121-136 | `gen_prog` over the statements as written: it succeeds exactly when the statement loop does, and its output starts with the prologue and ends with the epilogue. |
| Findings.SelfReferenceAccepted | src/generation.hpp:106-114 | As written, `let x = x;` is accepted and emits a push from offset -8, one word below the stack pointer. The corrected generator rejects it as undeclared. |
| Findings.SelfReferenceText | src/generation.hpp:51-53 | The text appended for `let x = x;` is a push from `[rsp + 18446744073709551608]`, the size_t wrap of -8. |
| Findings.SelfSumAccepted | src/generation.hpp:106-114 | As written, `let x = 1 + x;` is accepted, and its read of `x` is a push from offset 0, which copies the `1` just pushed. The corrected generator rejects it as undeclared. |
| Findings.GenExprFrame | src/generation.hpp:36-52 | Binding a name that an expression does not mention leaves the expression's code, stack size and failure unchanged. |
| Findings.AsWrittenAgrees | src/generation.hpp:106-114 | When a `let` initializer does not name the variable being defined, the statement as written and the corrected statement give the same result. |
| Findings.StmtsAsWrittenAgree | src/generation.hpp:125-127 | For a statement sequence in which no `let` names itself, generation as written equals corrected generation. |
| Findings.ProgAsWrittenExits | src/generation.hpp:121-136 | A program in which no `let` names itself compiles, as written, to the corrected generator's code. It therefore exits with the status the program means, never pops an empty stack, and reads only non-negative offsets. |
| Compiler.Compile | src/main.cpp:32-43 | A compile fails with a syntax error exactly when parsing fails, carrying the parser's error. A compiled result starts with the prologue and ends with the epilogue, and the program it came from has a defined exit status. |
| Compiler.RenderedCompiles | src/main.cpp:32-43 | The tokens of any well-formed program never fail with a syntax error. They compile exactly when the program generates, and then to the program's own code. |
| Compiler.CompiledProgramExits | src/main.cpp:32-43 | Any token sequence that compiles runs, from an empty stack, to the exit status its parsed program means. |
| Compiler.ExitLiteral | src/main.cpp:32-43 | `exit(N);` compiles, and exits with N's value. |
| Scenarios.SumOfBindings | src/generation.hpp:36-52 | `let x = 1; let y = 2; exit(x + y);` compiles and exits with 3, so `x`'s offset is right after `y` is pushed above it. |
| Scenarios.DuplicateBinding | src/generation.hpp:108-111 | Binding `x` twice is rejected with "Identifier already used". |
| Scenarios.UndeclaredReference | src/generation.hpp:36-39 | `exit(x);` with `x` never bound is rejected with "Undeclared identifier". |
| Scenarios.MissingCloseParen | src/parser.hpp:162 | `let x = 1; exit(x` fails with the diagnostic about the missing `)`, whose text is "Expected `)` `semi`". |
| Scenarios.InvalidSecondStatement | src/parser.hpp:196-203 | `let x = 1; )` parses the `let`, then fails on the second pass with "Invalid statement". |

## Left out

- Driver I/O in `src/main.cpp`: argument checks, file reading, writing `out.asm`, and running `nasm` and `ld`. None of this affects the passes.
- The tokenizer: `tokenization.hpp` is not part of this model, and the token sequence is an input.
- `src/arena.hpp`: the syntax tree is an immutable datatype, so no allocator is needed.
- Diagnostics on the error stream and `exit(EXIT_FAILURE)`: each becomes an error value. `Parser.Message` keeps the parser's texts.
- String-stream formatting: the output is an instruction list. `Asm.Text` renders it, including the blank line that the identifier push's trailing newline produces.
- Commented-out code: the old generator (`src/generation.hpp:183-205`), `tokens_to_asm` in `src/main.cpp`, and the commented binary operators (`src/parser.hpp:39-52`).
- x86-64 execution: `Machine` reads `push`/`pop`/`mov`/`add`/`syscall` abstractly, with unbounded integers. It does not model 64-bit wrap-around of `add`, or the kernel's reduction of the exit status to 8 bits.
- Parser.ParseStmt: requires a token at the cursor. The source dereferences `peek().value()` without a check, which throws `std::bad_optional_access` when there is none, and its only caller, the `parse_prog` loop, always has a token.
- Parser.Consume: requires a token at the cursor. The source's `at` would throw otherwise, and every call site is proved to have a token.
- Generator.Pop: requires a live word. The source decrements an unsigned counter, and every call in the generator is proved to find at least one word, so the wrap-around cannot occur.
- Generator.GenStmt: binds the `let` name after the initializer, so it is the corrected statement. The statement as written is `Findings.GenStmtAsWritten` (see Findings).
- Tokens without text: the generator reads the text of literal and identifier tokens unchecked, and `std::optional::value` would throw. The model turns a missing text into the error `MissingValue` instead. The tokenizer is not part of this model; the model assumes it attaches text to every literal and identifier token, so this error is not expected in practice.
- Generator.GenStmts: built on the corrected `let`. Where a `let` names itself in its initializer, it rejects the name as undeclared, while the source accepts it. `Findings.StmtsAsWrittenAgree` shows the two agree on every other program.
- Generator.GenProg: built on the corrected `let`; the same limits apply.
- Generator.GenProgText: built on the corrected `let`; the same limits apply.
- Compiler.Compile: built on the corrected `let`; the same limits apply.
- Generator.GenStmtCode: proved for the corrected `let`. As written, `let x = x;` is accepted and reads offset 2^64 - 8, so "only non-negative offsets" does not hold of the source for a `let` that names itself. `Findings.ProgAsWrittenExits` gives the offset fact for every other program.
- Generator.GenStmtsCode: proved for the corrected `let`; its non-negative-offset fact fails as written for a `let` that names itself, as for GenStmtCode.
- Generator.GenProgCode: proved for the corrected `let`; its non-negative-offset fact fails as written for a `let` that names itself. `Findings.ProgAsWrittenExits` carries it over to every other program.
- Correctness.StmtCorrect: proved for the corrected `let`. As written, `let x = x;` is accepted by the generator while the reference semantics fails on it, so "an accepted statement never fails" does not hold of the source there.
- Correctness.StmtsCorrect: proved for the corrected `let`; the same gap as StmtCorrect, for a sequence containing a `let` that names itself.
- Correctness.CompiledExitStatus: proved for the corrected `let`. `Findings.ProgAsWrittenExits` carries it over to the code as written for programs in which no `let` names itself.
- Compiler.CompiledProgramExits: built on the corrected `let`; the same limits apply.
- The size_t counter `m_stack_size` is never modelled as wrapping. It would need 2^64 pushes.

## Findings

| source | as written | input that shows it | evidently intended | confidence | as-written member | corrected member |
|---|---|---|---|---|---|---|
| src/generation.hpp:106-114, 51 | `let` records the new name's slot (the current stack size) before emitting the initializer. Inside the initializer the name is already bound, to the slot the initializer is about to fill. A reference then computes `(stack_size - stack_loc - 1) * 8` in size_t, which wraps to 2^64 - 8. | `let x = x;` is accepted and emits `push QWORD [rsp + 18446744073709551608]`. Likewise, `let x = 1 + x;` silently reads the `1` just pushed. | A name is usable only after its `let` completes, so `let x = x;` with `x` unbound is "Undeclared identifier". | high; not executed | Findings.GenStmtAsWritten, Findings.SelfReferenceAccepted, Findings.SelfReferenceText, Findings.SelfSumAccepted | Generator.GenStmt |

=== FILE: asm.dfy ===
/** The instructions the generator emits, and their text. The source appends
    text to a `std::stringstream`; here the output is a sequence of instructions
    that is rendered to text at the end. */
module Asm {

  datatype Reg = Rax | Rbx | Rdi

  /** The operand of a `push`: a register, or the 8-byte word `byteOffset` bytes
      above the stack pointer (`QWORD [rsp + byteOffset]`). The offset is kept as
      a mathematical integer; the text shows it as the source's unsigned
      `size_t` would print it. */
  datatype Operand =
    | RegOp(reg: Reg)
    | StackWord(byteOffset: int)

  datatype Instr =
    | Global(symbol: string)            // global _start
    | Label(symbol: string)             // _start:
    | Mov(dst: Reg, imm: string)        // mov rax, 60 / mov rax, <literal>
    | Push(src: Operand)
    | Pop(dst: Reg)
    | AddRegs(dst: Reg, addend: Reg)    // add rax, rbx
    | Syscall

  // ---------------------------------------------------------------------------
  // Stack accounting of emitted code

  /** How an instruction changes the number of live stack slots. */
  function Delta(i: Instr): int
  {
    match i
    case Push(_) => 1
    case Pop(_) => -1
    case _ => 0
  }

  /** The net change in stack slots of a piece of code. */
  function NetDepth(code: seq<Instr>): int
  {
    if |code| == 0 then 0 else Delta(code[0]) + NetDepth(code[1..])
  }

  /** Starting `depth` slots above some base, the code never pops below it. */
  predicate NeverBelow(code: seq<Instr>, depth: int)
  {
    depth >= 0 && (|code| == 0 || NeverBelow(code[1..], depth + Delta(code[0])))
  }

  lemma {:induction false} NetDepthAppend(a: seq<Instr>, b: seq<Instr>)
    ensures NetDepth(a + b) == NetDepth(a) + NetDepth(b)
    decreases |a|
  {
    if |a| == 0 {
      assert a + b == b;
    } else {
      assert (a + b)[0] == a[0] && (a + b)[1..] == a[1..] + b;
      NetDepthAppend(a[1..], b);
    }
  }

  lemma {:induction false} NeverBelowAppend(a: seq<Instr>, b: seq<Instr>, depth: int)
    requires NeverBelow(a, depth) && NeverBelow(b, depth + NetDepth(a))
    ensures NeverBelow(a + b, depth)
    decreases |a|
  {
    if |a| == 0 {
      assert a + b == b;
    } else {
      assert (a + b)[0] == a[0] && (a + b)[1..] == a[1..] + b;
      NeverBelowAppend(a[1..], b, depth + Delta(a[0]));
    }
  }

  lemma StepCons(i: Instr, rest: seq<Instr>, depth: int)
    ensures NetDepth([i] + rest) == Delta(i) + NetDepth(rest)
    ensures NeverBelow([i] + rest, depth) <==> depth >= 0 && NeverBelow(rest, depth + Delta(i))
  {
    assert ([i] + rest)[0] == i && ([i] + rest)[1..] == rest;
  }

  /** Code that is safe from some depth is safe from any greater depth. */
  lemma {:induction false} NeverBelowRaise(code: seq<Instr>, depth: int, higher: int)
    requires NeverBelow(code, depth) && depth <= higher
    ensures NeverBelow(code, higher)
    decreases |code|
  {
    if |code| != 0 {
      NeverBelowRaise(code[1..], depth + Delta(code[0]), higher + Delta(code[0]));
    }
  }

  // ---------------------------------------------------------------------------
  // Text

  const SizeModulus: int := 0x1_0000_0000_0000_0000

  /** How the source's `size_t` arithmetic shows an offset: modulo 2^64. */
  function AsSizeT(x: int): (r: nat)
    ensures r < SizeModulus
    ensures 0 <= x < SizeModulus ==> r == x
    ensures -SizeModulus <= x < 0 ==> r == x + SizeModulus
  {
    x % SizeModulus
  }

  function DigitChar(d: nat): (c: char)
    requires d < 10
    ensures '0' <= c <= '9' && c as int - '0' as int == d
  {
    ('0' as int + d) as char
  }

  /** Decimal text of a natural number. */
  function NatToString(n: nat): (s: string)
    ensures |s| >= 1
    ensures forall i :: 0 <= i < |s| ==> '0' <= s[i] <= '9'
  {
    if n < 10 then [DigitChar(n)] else NatToString(n / 10) + [DigitChar(n % 10)]
  }

  /** The numeric value of decimal text, as the assembler reads an immediate. */
  function Decimal(s: string): int
  {
    if |s| == 0 then 0 else 10 * Decimal(s[..|s| - 1]) + (s[|s| - 1] as int - '0' as int)
  }

  lemma {:induction false} DecimalOfNatToString(n: nat)
    ensures Decimal(NatToString(n)) == n
  {
    var s := NatToString(n);
    if n < 10 {
      assert s[..0] == [];
    } else {
      DecimalOfNatToString(n / 10);
      assert s[..|s| - 1] == NatToString(n / 10);
      assert s[|s| - 1] == DigitChar(n % 10);
    }
  }

  function RegName(r: Reg): string
  {
    match r
    case Rax => "rax"
    case Rbx => "rbx"
    case Rdi => "rdi"
  }

  /** The operand text handed to `push`. A stack word's text ends in its own
      newline, so a `push` of one is followed by an empty line. */
  function OperandText(o: Operand): string
  {
    match o
    case RegOp(r) => RegName(r)
    case StackWord(off) => "QWORD [rsp + " + NatToString(AsSizeT(off)) + "]\n"
  }

  function InstrText(i: Instr): string
  {
    match i
    case Global(sym) => "global " + sym + "\n"
    case Label(sym) => sym + ":\n"
    case Mov(dst, imm) => "    mov " + RegName(dst) + ", " + imm + "\n"
    case Push(src) => "    push " + OperandText(src) + "\n"
    case Pop(dst) => "    pop " + RegName(dst) + "\n"
    case AddRegs(dst, src) => "    add " + RegName(dst) + ", " + RegName(src) + "\n"
    case Syscall => "    syscall\n"
  }

  function Text(code: seq<Instr>): string
  {
    if |code| == 0 then "" else InstrText(code[0]) + Text(code[1..])
  }

  lemma {:induction false} TextAppend(a: seq<Instr>, b: seq<Instr>)
    ensures Text(a + b) == Text(a) + Text(b)
    decreases |a|
  {
    if |a| == 0 {
      assert a + b == b;
    } else {
      assert (a + b)[0] == a[0] && (a + b)[1..] == a[1..] + b;
      TextAppend(a[1..], b);
    }
  }
}

=== FILE: ast.dfy ===
/** The abstract syntax tree built by the parser. The source keeps every node in a
    bump-pointer arena and links them by raw pointer; here each node is an
    immutable value, so ownership and lifetime questions disappear. */
module Ast {
  import opened Tokens

  datatype Term =
    | TermIntLit(intLit: Token)
    | TermIdent(ident: Token)

  /** The only binary expression is addition. */
  datatype BinExpr = Add(lhs: Expr, rhs: Expr)

  datatype Expr =
    | ExprTerm(term: Term)
    | ExprBin(bin: BinExpr)

  datatype Stmt =
    | StmtExit(expr: Expr)
    | StmtLet(ident: Token, expr: Expr)

  /** Statements in source order, which is also execution order. */
  datatype Prog = Prog(stmts: seq<Stmt>)

  /** The token a term was built from. */
  function TermToken(t: Term): Token
  {
    match t
    case TermIntLit(tok) => tok
    case TermIdent(tok) => tok
  }

  /** A term wraps a token of the matching kind. */
  predicate WellFormedTerm(t: Term)
  {
    match t
    case TermIntLit(tok) => tok.kind == IntLit
    case TermIdent(tok) => tok.kind == Ident
  }

  /** The shapes the parser can build: addition is right-recursive, so the left
      operand of every `Add` is a single term. */
  predicate WellFormedExpr(e: Expr)
  {
    match e
    case ExprTerm(t) => WellFormedTerm(t)
    case ExprBin(Add(l, r)) => l.ExprTerm? && WellFormedTerm(l.term) && WellFormedExpr(r)
  }

  predicate WellFormedStmt(s: Stmt)
  {
    match s
    case StmtExit(e) => WellFormedExpr(e)
    case StmtLet(id, e) => id.kind == Ident && WellFormedExpr(e)
  }

  predicate WellFormedStmts(stmts: seq<Stmt>)
  {
    forall i :: 0 <= i < |stmts| ==> WellFormedStmt(stmts[i])
  }

  predicate WellFormedProg(p: Prog)
  {
    WellFormedStmts(p.stmts)
  }
}

=== FILE: common.dfy ===
/** Failure-carrying wrappers shared by the parser and the code generator. */
module Common {

  /** An optional value: the model of `std::optional`. */
  datatype Option<+T> = None | Some(value: T)

  /** Either a value or the error that stopped the computation. Every place where
      the compiler prints a diagnostic and calls `exit(EXIT_FAILURE)` becomes an
      `Err` here. */
  datatype Result<+T, +E> = Ok(value: T) | Err(error: E)
}

=== FILE: compiler.dfy ===
/** The two passes composed as the driver runs them: parse the token sequence,
    then generate code for the program. */
module Compiler {
  import opened Common
  import opened Tokens
  import opened Ast
  import opened Parser
  import opened Unparse
  import opened Asm
  import opened Generator
  import opened Machine
  import opened Semantics
  import opened Correctness

  datatype CompileError =
    | Syntax(parseError: ParseError)
    | Semantic(genError: GenError)

  /** `main`'s two passes: a parse error stops it before any code exists, and
      what it writes is a framed program whose source has a defined exit status. */
  function Compile(toks: seq<Token>): (r: Result<seq<Instr>, CompileError>)
    ensures r.Err? && r.error.Syntax? <==> ParseProg(toks).Err?
    ensures r.Err? && r.error.Syntax? ==> r.error.parseError == ParseProg(toks).error
    ensures r.Ok? ==> ParseProg(toks).Ok? && ExitStatus(ParseProg(toks).value).Some?
    ensures r.Ok? ==>
      && |r.value| >= |Prologue| + |Epilogue|
      && r.value[..|Prologue|] == Prologue
      && r.value[|r.value| - |Epilogue|..] == Epilogue
  {
    match ParseProg(toks)
    case Err(e) => Err(Syntax(e))
    case Ok(p) =>
      match GenProg(p)
      case Err(e) => Err(Semantic(e))
      case Ok(code) =>
        CompiledExitStatus(p, Boot);
        Ok(code)
  }

  /** The tokens of a well-formed program never stop the compiler with a syntax
      error: it fails only where code generation fails, and otherwise yields the
      code generated for that very program. */
  lemma RenderedCompiles(p: Prog)
    requires WellFormedProg(p)
    ensures Compile(ProgTokens(p.stmts)).Err? ==> Compile(ProgTokens(p.stmts)).error.Semantic?
    ensures Compile(ProgTokens(p.stmts)).Ok? <==> GenProg(p).Ok?
    ensures Compile(ProgTokens(p.stmts)).Ok? ==> Compile(ProgTokens(p.stmts)).value == GenProg(p).value
  {
    ParseUnparse(p);
  }

  /** Whatever compiles runs, from an empty stack, to the exit status the parsed
      program means. */
  lemma CompiledProgramExits(toks: seq<Token>, m: Machine)
    requires Compile(toks).Ok? && m.stack == []
    ensures ParseProg(toks).Ok? && ExitStatus(ParseProg(toks).value).Some?
    ensures Exec(Compile(toks).value, Running(m)) == Halted(ExitStatus(ParseProg(toks).value).value)
  {
    CompiledExitStatus(ParseProg(toks).value, m);
  }

  /** The tokens of `exit(N);`. */
  function ExitLiteralTokens(n: string): seq<Token>
  {
    [Bare(Exit), Bare(OpenParen), Lit(n), Bare(CloseParen), Bare(Semi)]
  }

  /** A program that is only `exit(N);` compiles and exits with N's value. */
  lemma ExitLiteral(n: string, m: Machine)
    requires m.stack == []
    ensures Compile(ExitLiteralTokens(n)).Ok?
    ensures Exec(Compile(ExitLiteralTokens(n)).value, Running(m)) == Halted(Decimal(n))
  {
    var p := Prog([StmtExit(ExprTerm(TermIntLit(Lit(n))))]);
    assert ProgTokens(p.stmts) == ExitLiteralTokens(n) by {
      assert p.stmts[1..] == [];
    }
    ParseUnparse(p);
    assert Run(p.stmts[1..], map[]) == Finished(map[]);
    var g1 := GenStmt(Initial, p.stmts[0]);
    assert g1.Ok? && GenStmts(g1.value, p.stmts[1..]) == g1;
    CompiledProgramExits(ExitLiteralTokens(n), m);
  }
}

=== FILE: correctness.dfy ===
/** The generated code does what the program means: under the stack-machine
    reading of the instructions, every expression pushes its value, an identifier
    copies the value its `let` pushed, and the compiled program exits with the
    status of the first `exit` it reaches, or 0. */
module Correctness {
  import opened Common
  import opened Ast
  import opened Asm
  import opened Generator
  import opened Machine
  import opened Semantics

  /** The generator's bookkeeping matches a machine state: the stack holds
      `stackSize` words and each bound identifier's slot holds its value. */
  predicate Agrees(g: Gen, env: map<string, int>, m: Machine)
  {
    && |m.stack| == g.stackSize
    && g.vars.Keys == env.Keys
    && forall x :: x in g.vars ==> g.vars[x].stackLoc < |m.stack| && m.stack[g.vars[x].stackLoc] == env[x]
  }

  /** Pushing a word on top keeps every binding's slot, and the size in step. */
  lemma AgreesPush(g: Gen, g1: Gen, env: map<string, int>, m: Machine, m1: Machine, v: int)
    requires Agrees(g, env, m)
    requires g1.stackSize == g.stackSize + 1 && g1.vars == g.vars && m1.stack == m.stack + [v]
    ensures Agrees(g1, env, m1)
  {
    forall x | x in g1.vars
      ensures m1.stack[g1.vars[x].stackLoc] == env[x]
    {
      assert g1.vars[x].stackLoc < |m.stack|;
    }
  }

  /** The code for a term pushes the term's value. */
  lemma TermCorrect(g: Gen, t: Term, env: map<string, int>, m: Machine)
    requires GenTerm(g, t).Ok? && Agrees(g, env, m)
    ensures Eval(ExprTerm(t), env).Some?
    ensures Exec(Emitted(g, GenTerm(g, t).value), Running(m)).Running?
    ensures Exec(Emitted(g, GenTerm(g, t).value), Running(m)).m.stack == m.stack + [Eval(ExprTerm(t), env).value]
  {
    var code := Emitted(g, GenTerm(g, t).value);
    match t
    case TermIntLit(tok) =>
      var push := Instr.Push(RegOp(Rax));
      assert code == [Mov(Rax, tok.value.value)] + [push];
      ExecCons(Mov(Rax, tok.value.value), [push], m);
      var m1 := Set(m, Rax, Decimal(tok.value.value));
      ExecCons(push, [], m1);
      assert [push] == [push] + [];
    case TermIdent(tok) =>
      var loc := g.vars[tok.value.value].stackLoc;
      var off := code[0].src.byteOffset;
      assert off / 8 == |m.stack| - 1 - loc;
      assert Addressable(m, off);
      assert code[1..] == [];
  }

  /** The code for an expression pushes the expression's value and leaves the
      words below it alone. */
  lemma {:induction false} ExprCorrect(g: Gen, e: Expr, env: map<string, int>, m: Machine)
    requires GenExpr(g, e).Ok? && Agrees(g, env, m)
    ensures Eval(e, env).Some?
    ensures Exec(Emitted(g, GenExpr(g, e).value), Running(m)).Running?
    ensures Exec(Emitted(g, GenExpr(g, e).value), Running(m)).m.stack == m.stack + [Eval(e, env).value]
    decreases ExprSize(e), 1
  {
    match e
    case ExprTerm(t) => TermCorrect(g, t, env, m);
    case ExprBin(b) => BinExprCorrect(g, b, env, m);
  }

  lemma {:induction false} BinExprCorrect(g: Gen, b: BinExpr, env: map<string, int>, m: Machine)
    requires GenBinExpr(g, b).Ok? && Agrees(g, env, m)
    ensures Eval(ExprBin(b), env).Some?
    ensures Exec(Emitted(g, GenBinExpr(g, b).value), Running(m)).Running?
    ensures Exec(Emitted(g, GenBinExpr(g, b).value), Running(m)).m.stack == m.stack + [Eval(ExprBin(b), env).value]
    decreases BinSize(b), 0
  {
    GenBinExprShape(g, b);
    var g1 := GenExpr(g, b.lhs).value;
    ExprCorrect(g, b.lhs, env, m);
    var m1 := Exec(Emitted(g, g1), Running(m)).m;
    var v1 := Eval(b.lhs, env).value;
    AgreesPush(g, g1, env, m, m1, v1);
    ExprCorrect(g1, b.rhs, env, m1);
    var g2 := GenExpr(g1, b.rhs).value;
    var v2 := Eval(b.rhs, env).value;
    BinRuns(Emitted(g, g1), Emitted(g1, g2), m, m1, v1, v2);
    EvalAdd(b, env, v1, v2);
  }

  lemma EvalAdd(b: BinExpr, env: map<string, int>, v1: int, v2: int)
    requires Eval(b.lhs, env) == Some(v1) && Eval(b.rhs, env) == Some(v2)
    ensures Eval(ExprBin(b), env) == Some(v1 + v2)
  {
  }

  /** Both operands' code run in turn, then the addition. */
  lemma BinRuns(c1: seq<Instr>, c2: seq<Instr>, m: Machine, m1: Machine, v1: int, v2: int)
    requires Exec(c1, Running(m)).Running? && Exec(c1, Running(m)).m == m1
    requires m1.stack == m.stack + [v1]
    requires Exec(c2, Running(m1)).Running? && Exec(c2, Running(m1)).m.stack == m1.stack + [v2]
    ensures Exec(c1 + c2 + AddTailCode, Running(m)).Running?
    ensures Exec(c1 + c2 + AddTailCode, Running(m)).m.stack == m.stack + [v1 + v2]
  {
    assert Exec(c1, Running(m)) == Running(m1);
    AddRuns(c1, c2, m, v1, v2);
  }

  lemma AddRuns(c1: seq<Instr>, c2: seq<Instr>, m: Machine, v1: int, v2: int)
    requires Exec(c1, Running(m)).Running? && Exec(c1, Running(m)).m.stack == m.stack + [v1]
    requires Exec(c2, Exec(c1, Running(m))).Running?
    requires Exec(c2, Exec(c1, Running(m))).m.stack == m.stack + [v1] + [v2]
    ensures Exec(c1 + c2 + AddTailCode, Running(m)).Running?
    ensures Exec(c1 + c2 + AddTailCode, Running(m)).m.stack == m.stack + [v1 + v2]
  {
    ExecAppend(c1 + c2, AddTailCode, Running(m));
    ExecAppend(c1, c2, Running(m));
    AddTailRuns(Exec(c2, Exec(c1, Running(m))).m, m.stack, v1, v2);
  }

  /** Popping the two operands, adding and pushing leaves their sum. */
  lemma AddTailRuns(m: Machine, below: seq<int>, v1: int, v2: int)
    requires m.stack == below + [v1] + [v2]
    ensures Exec(AddTailCode, Running(m)).Running?
    ensures Exec(AddTailCode, Running(m)).m.stack == below + [v1 + v2]
  {
    var c := AddTailCode;
    assert m.stack[..|m.stack| - 1] == below + [v1];
    assert (below + [v1])[..|below|] == below;
    var ma := Set(m.(stack := below + [v1]), Rax, v2);
    var mb := Set(ma.(stack := below), Rbx, v1);
    var mc := Set(mb, Rax, v2 + v1);
    ExecCons(c[0], c[1..], m);
    assert Step(c[0], m) == Running(ma);
    ExecCons(c[1], c[2..], ma);
    assert Step(c[1], ma) == Running(mb);
    ExecCons(c[2], c[3..], mb);
    ExecCons(c[3], [], mc);
    assert c == [c[0]] + c[1..] && c[1..] == [c[1]] + c[2..] && c[2..] == [c[2]] + c[3..];
    assert c[3..] == [c[3]] + [];
  }

  /** The immediates the generator loads for the `exit` system call. */
  lemma ExitImmediates()
    ensures Decimal("60") == SysExit && Decimal("0") == 0
  {
    assert "60"[..1] == "6" && "6"[..0] == "" && "0"[..0] == "";
  }

  /** `mov rax, 60; pop rdi; syscall` exits with the word on top of the stack. */
  lemma ExitTailRuns(m: Machine, below: seq<int>, v: int)
    requires m.stack == below + [v]
    ensures Exec(ExitTailCode, Running(m)) == Halted(v)
  {
    var c := ExitTailCode;
    ExitImmediates();
    var ma := Set(m, Rax, SysExit);
    assert ma.stack[..|ma.stack| - 1] == below;
    var mb := Set(ma.(stack := below), Rdi, v);
    ExecCons(c[0], c[1..], m);
    ExecCons(c[1], c[2..], ma);
    assert Step(c[1], ma) == Running(mb);
    ExecCons(c[2], [], mb);
    assert c == [c[0]] + c[1..] && c[1..] == [c[1]] + c[2..] && c[2..] == [c[2]] + [];
  }

  /** A bound slot survives any push on top, and the new top is a fresh binding. */
  lemma AgreesBind(g: Gen, r: Gen, env: map<string, int>, m: Machine, m1: Machine, x: string, v: int)
    requires Agrees(g, env, m) && x !in g.vars
    requires r.stackSize == g.stackSize + 1 && r.vars == g.vars[x := Var(g.stackSize)]
    requires m1.stack == m.stack + [v]
    ensures Agrees(r, env[x := v], m1)
  {
    forall y | y in r.vars
      ensures r.vars[y].stackLoc < |m1.stack| && m1.stack[r.vars[y].stackLoc] == env[x := v][y]
    {
      if y != x {
        assert g.vars[y].stackLoc < |m.stack|;
      }
    }
  }

  /** One statement: the code of `exit(e);` halts with `e`'s value, and the code of
      `let x = e;` leaves the machine agreeing with the extended bindings. A statement
      the generator accepts never fails at run time. */
  lemma StmtCorrect(g: Gen, s: Stmt, env: map<string, int>, m: Machine)
    requires GenStmt(g, s).Ok? && Agrees(g, env, m)
    ensures !ExecStmt(s, env).Failed?
    ensures ExecStmt(s, env).Exited? ==>
      Exec(Emitted(g, GenStmt(g, s).value), Running(m)) == Halted(ExecStmt(s, env).status)
    ensures ExecStmt(s, env).Finished? ==>
      && Exec(Emitted(g, GenStmt(g, s).value), Running(m)).Running?
      && Agrees(GenStmt(g, s).value, ExecStmt(s, env).env, Exec(Emitted(g, GenStmt(g, s).value), Running(m)).m)
  {
    var r := GenStmt(g, s).value;
    var g1 := GenExpr(g, s.expr).value;
    ExprCorrect(g, s.expr, env, m);
    var c1 := Emitted(g, g1);
    var m1 := Exec(c1, Running(m)).m;
    var v := Eval(s.expr, env).value;
    if s.StmtExit? {
      GenExitShape(g, s);
      ExecAppend(c1, ExitTailCode, Running(m));
      ExitTailRuns(m1, m.stack, v);
    } else {
      assert Emitted(g, r) == c1;
      AgreesBind(g, r, env, m, m1, s.ident.value.value, v);
    }
  }

  /** A statement sequence, against `Run`. */
  lemma {:induction false} StmtsCorrect(g: Gen, stmts: seq<Stmt>, env: map<string, int>, m: Machine)
    requires GenStmts(g, stmts).Ok? && Agrees(g, env, m)
    ensures !Run(stmts, env).Failed?
    ensures Run(stmts, env).Exited? ==>
      Exec(Emitted(g, GenStmts(g, stmts).value), Running(m)) == Halted(Run(stmts, env).status)
    ensures Run(stmts, env).Finished? ==>
      && Exec(Emitted(g, GenStmts(g, stmts).value), Running(m)).Running?
      && Agrees(GenStmts(g, stmts).value, Run(stmts, env).env, Exec(Emitted(g, GenStmts(g, stmts).value), Running(m)).m)
    decreases |stmts|
  {
    var r := GenStmts(g, stmts).value;
    if |stmts| == 0 {
      assert Emitted(g, r) == [];
    } else {
      var g1 := GenStmt(g, stmts[0]).value;
      assert r == GenStmts(g1, stmts[1..]).value;
      StmtCorrect(g, stmts[0], env, m);
      EmittedChain(g, g1, r);
      ExecAppend(Emitted(g, g1), Emitted(g1, r), Running(m));
      var s1 := Exec(Emitted(g, g1), Running(m));
      match ExecStmt(stmts[0], env)
      case Exited(status) =>
        ExecHalted(Emitted(g1, r), status);
      case Finished(env1) =>
        StmtsCorrect(g1, stmts[1..], env1, s1.m);
    }
  }

  /** The compiled program, started on an empty stack, exits with the status the
      program means: that of the first `exit` reached, or 0 when none is. */
  lemma CompiledExitStatus(p: Prog, m: Machine)
    requires GenProg(p).Ok? && m.stack == []
    ensures ExitStatus(p).Some?
    ensures Exec(GenProg(p).value, Running(m)) == Halted(ExitStatus(p).value)
  {
    var g := GenStmts(Initial, p.stmts).value;
    var body := Emitted(Initial, g);
    assert GenProg(p).value == Prologue + body + Epilogue by {
      assert g.out == Prologue + body;
    }
    assert Exec(Prologue, Running(m)) == Running(m) by {
      ExecCons(Prologue[0], Prologue[1..], m);
      ExecCons(Prologue[1], [], m);
      assert Prologue == [Prologue[0]] + Prologue[1..] && Prologue[1..] == [Prologue[1]] + [];
    }
    ExecAppend(Prologue + body, Epilogue, Running(m));
    ExecAppend(Prologue, body, Running(m));
    StmtsCorrect(Initial, p.stmts, map[], m);
    var s := Exec(body, Running(m));
    match Run(p.stmts, map[])
    case Exited(status) =>
      ExecHalted(Epilogue, status);
    case Finished(_) =>
      EpilogueRuns(s.m);
  }

  /** Falling off the end exits with status 0. */
  lemma EpilogueRuns(m: Machine)
    ensures Exec(Epilogue, Running(m)) == Halted(0)
  {
    var c := Epilogue;
    ExitImmediates();
    var ma := Set(m, Rax, SysExit);
    var mb := Set(ma, Rdi, 0);
    ExecCons(c[0], c[1..], m);
    ExecCons(c[1], c[2..], ma);
    ExecCons(c[2], [], mb);
    assert c == [c[0]] + c[1..] && c[1..] == [c[1]] + c[2..] && c[2..] == [c[2]] + [];
  }
}

=== FILE: findings.dfy ===
/** The source's `let` binds its name before emitting the initializer, so the
    initializer can name the variable being defined. Its slot is then the word
    the initializer is about to push, and the offset that reaches it is one word
    below the stack pointer; in `size_t` arithmetic that is 2^64 - 8. The
    generator in `Generator` binds the name only after the initializer; this
    module keeps the statement as written, to exhibit the difference. */
module Findings {
  import opened Common
  import opened Tokens
  import opened Ast
  import opened Asm
  import opened Generator
  import opened Machine
  import opened Semantics
  import opened Correctness

  /** `gen_stmt` as written: for `let x = e;` the binding of `x` to the next free
      slot is visible while `e` is emitted. */
  function GenStmtAsWritten(g: Gen, s: Stmt): (r: Result<Gen, GenError>)
    ensures s.StmtExit? ==> r == GenStmt(g, s)
    ensures s.StmtLet? && s.ident.value.Some? && s.ident.value.value in g.vars ==>
      r == Err(IdentifierAlreadyUsed(s.ident.value.value))
    ensures s.StmtLet? && s.ident.value.Some? && s.ident.value.value !in g.vars ==>
      var early := g.vars[s.ident.value.value := Var(g.stackSize)];
      && (r.Err? <==> !Resolvable(s.expr, early))
      && (r.Ok? ==> r.value.stackSize == g.stackSize + 1 && r.value.vars == early)
    ensures r.Ok? ==> g.out <= r.value.out
  {
    match s
    case StmtExit(_) => GenStmt(g, s)
    case StmtLet(id, e) =>
      if id.value.None? then Err(MissingValue)
      else if id.value.value in g.vars then Err(IdentifierAlreadyUsed(id.value.value))
      else GenExpr(g.(vars := g.vars[id.value.value := Var(g.stackSize)]), e)
  }

  /** Some identifier in `e` names `x`. */
  predicate Mentions(e: Expr, x: string)
  {
    match e
    case ExprTerm(TermIntLit(_)) => false
    case ExprTerm(TermIdent(t)) => t.value == Some(x)
    case ExprBin(Add(l, r)) => Mentions(l, x) || Mentions(r, x)
  }

  /** A `let` whose initializer names the variable it defines. */
  predicate SelfReferent(s: Stmt)
  {
    s.StmtLet? && s.ident.value.Some? && Mentions(s.expr, s.ident.value.value)
  }

  /** A generation result with its variable table replaced. */
  function Rebound(r: Result<Gen, GenError>, vars: map<string, Var>): Result<Gen, GenError>
  {
    match r
    case Err(e) => Err(e)
    case Ok(h) => Ok(h.(vars := vars))
  }

  /** Binding a name the expression does not mention changes nothing in the code
      emitted for it, nor in whether it fails. */
  lemma {:induction false} GenExprFrame(g: Gen, e: Expr, x: string, v: Var)
    requires !Mentions(e, x)
    ensures GenExpr(g.(vars := g.vars[x := v]), e) == Rebound(GenExpr(g, e), g.vars[x := v])
    decreases e
  {
    match e
    case ExprTerm(_) =>
    case ExprBin(Add(l, r)) =>
      GenExprFrame(g, l, x, v);
      match GenExpr(g, l)
      case Err(_) =>
      case Ok(g1) =>
        GenExprFrame(g1, r, x, v);
  }

  /** Where the initializer does not name the variable it defines, the statement
      as written and the corrected one generate the same result. */
  lemma AsWrittenAgrees(g: Gen, s: Stmt)
    requires !SelfReferent(s)
    ensures GenStmtAsWritten(g, s) == GenStmt(g, s)
  {
    if s.StmtLet? && s.ident.value.Some? && s.ident.value.value !in g.vars {
      GenExprFrame(g, s.expr, s.ident.value.value, Var(g.stackSize));
    }
  }

  /** The statement loop of `gen_prog` over the statement as written. */
  function GenStmtsAsWritten(g: Gen, stmts: seq<Stmt>): (r: Result<Gen, GenError>)
    ensures r.Ok? ==> g.out <= r.value.out
    ensures r.Ok? && |stmts| > 0 ==>
      GenStmtAsWritten(g, stmts[0]).Ok? && GenStmtAsWritten(g, stmts[0]).value.out <= r.value.out
    decreases |stmts|
  {
    if |stmts| == 0 then Ok(g)
    else
      match GenStmtAsWritten(g, stmts[0])
      case Err(e) => Err(e)
      case Ok(g1) => GenStmtsAsWritten(g1, stmts[1..])
  }

  /** `gen_prog` as written: the prologue, the statements, then the epilogue. */
  function GenProgAsWritten(p: Prog): (r: Result<seq<Instr>, GenError>)
    ensures r.Ok? <==> GenStmtsAsWritten(Initial, p.stmts).Ok?
    ensures r.Ok? ==> |r.value| >= |Prologue| + |Epilogue|
    ensures r.Ok? ==> r.value[..|Prologue|] == Prologue
    ensures r.Ok? ==> r.value[|r.value| - |Epilogue|..] == Epilogue
  {
    match GenStmtsAsWritten(Initial, p.stmts)
    case Err(e) => Err(e)
    case Ok(g) => Ok(g.out + Epilogue)
  }

  lemma {:induction false} StmtsAsWrittenAgree(g: Gen, stmts: seq<Stmt>)
    requires forall i :: 0 <= i < |stmts| ==> !SelfReferent(stmts[i])
    ensures GenStmtsAsWritten(g, stmts) == GenStmts(g, stmts)
    decreases |stmts|
  {
    if |stmts| > 0 {
      AsWrittenAgrees(g, stmts[0]);
      if GenStmt(g, stmts[0]).Ok? {
        StmtsAsWrittenAgree(GenStmt(g, stmts[0]).value, stmts[1..]);
      }
    }
  }

  /** A program in which no `let` names itself in its initializer compiles, as
      written, to the code of the corrected generator, and so exits with the
      status the program means. */
  lemma ProgAsWrittenExits(p: Prog, m: Machine)
    requires forall i :: 0 <= i < |p.stmts| ==> !SelfReferent(p.stmts[i])
    requires GenProgAsWritten(p).Ok? && m.stack == []
    ensures GenProgAsWritten(p) == GenProg(p)
    ensures ExitStatus(p).Some?
    ensures Exec(GenProgAsWritten(p).value, Running(m)) == Halted(ExitStatus(p).value)
    ensures NeverBelow(GenProgAsWritten(p).value, 0) && OffsetsNonNegative(GenProgAsWritten(p).value)
  {
    StmtsAsWrittenAgree(Initial, p.stmts);
    CompiledExitStatus(p, m);
    GenProgCode(p);
  }

  /** `let x = 1 + x;` with `x` unbound: as written, the read of `x` copies the
      word just pushed for `1`, the slot `x` is about to own; the corrected
      statement rejects `x` as undeclared. */
  lemma SelfSumAccepted(g: Gen, x: string)
    requires x !in g.vars
    ensures GenStmtAsWritten(g, StmtLet(Name(x), ExprBin(Add(ExprTerm(TermIntLit(Lit("1"))), ExprTerm(TermIdent(Name(x))))))).Ok?
    ensures
      var r := GenStmtAsWritten(g, StmtLet(Name(x), ExprBin(Add(ExprTerm(TermIntLit(Lit("1"))), ExprTerm(TermIdent(Name(x))))))).value;
      && g.out <= r.out
      && Emitted(g, r) == [Mov(Rax, "1"), Instr.Push(RegOp(Rax)), Instr.Push(StackWord(0)),
                           Instr.Pop(Rax), Instr.Pop(Rbx), AddRegs(Rax, Rbx), Instr.Push(RegOp(Rax))]
    ensures GenStmt(g, StmtLet(Name(x), ExprBin(Add(ExprTerm(TermIntLit(Lit("1"))), ExprTerm(TermIdent(Name(x)))))))
      == Err(UndeclaredIdentifier(x))
  {
    var one := ExprTerm(TermIntLit(Lit("1")));
    var self := ExprTerm(TermIdent(Name(x)));
    var h := g.(vars := g.vars[x := Var(g.stackSize)]);
    var g1 := GenExpr(h, one).value;
    assert g1 == Generator.Push(Emit(h, Mov(Rax, "1")), RegOp(Rax));
    var g2 := GenExpr(g1, self).value;
    assert g2 == Generator.Push(g1, StackWord(SlotOffset(g.stackSize + 1, g.stackSize)));
    assert SlotOffset(g.stackSize + 1, g.stackSize) == 0;
    var g5 := Emit(Generator.Pop(Generator.Pop(g2, Rax), Rbx), AddRegs(Rax, Rbx));
    assert GenExpr(h, ExprBin(Add(one, self))) == Ok(Generator.Push(g5, RegOp(Rax)));
    assert Generator.Push(g5, RegOp(Rax)).out == g.out +
      [Mov(Rax, "1"), Instr.Push(RegOp(Rax)), Instr.Push(StackWord(0)),
       Instr.Pop(Rax), Instr.Pop(Rbx), AddRegs(Rax, Rbx), Instr.Push(RegOp(Rax))];
    var c1 := GenExpr(g, one).value;
    assert c1.vars == g.vars;
    assert GenExpr(c1, self) == Err(UndeclaredIdentifier(x));
    assert GenExpr(g, ExprBin(Add(one, self))) == Err(UndeclaredIdentifier(x));
  }

  /** `let x = x;` with `x` unbound: the statement as written is accepted and
      copies the word one slot below the stack pointer, whatever the state. */
  lemma SelfReferenceAccepted(g: Gen, x: string)
    requires x !in g.vars
    ensures GenStmtAsWritten(g, StmtLet(Name(x), ExprTerm(TermIdent(Name(x))))).Ok?
    ensures
      var r := GenStmtAsWritten(g, StmtLet(Name(x), ExprTerm(TermIdent(Name(x))))).value;
      && g.out <= r.out
      && Emitted(g, r) == [Instr.Push(StackWord(-8))]
      && !OffsetsNonNegative(Emitted(g, r))
    ensures GenStmt(g, StmtLet(Name(x), ExprTerm(TermIdent(Name(x))))) == Err(UndeclaredIdentifier(x))
  {
    var r := GenStmtAsWritten(g, StmtLet(Name(x), ExprTerm(TermIdent(Name(x))))).value;
    assert Emitted(g, r)[0].src.byteOffset < 0;
  }

  /** The text the source appends for `let x = x;`: a push whose offset is
      printed as 2^64 - 8, that is 18446744073709551608. */
  lemma SelfReferenceText(g: Gen, x: string, wrapped: nat)
    requires x !in g.vars && wrapped == SizeModulus - 8
    ensures
      var r := GenStmtAsWritten(g, StmtLet(Name(x), ExprTerm(TermIdent(Name(x)))));
      && r.Ok?
      && Text(r.value.out) == Text(g.out) + ("    push " + ("QWORD [rsp + " + NatToString(wrapped) + "]\n") + "\n")
  {
    SelfReferenceAccepted(g, x);
    var r := GenStmtAsWritten(g, StmtLet(Name(x), ExprTerm(TermIdent(Name(x))))).value;
    var push := Instr.Push(StackWord(-8));
    assert r.out == g.out + [push];
    TextAppend(g.out, [push]);
    assert AsSizeT(-8) == wrapped;
    PushText(-8, NatToString(wrapped));
  }

  lemma PushText(off: int, digits: string)
    requires digits == NatToString(AsSizeT(off))
    ensures Text([Instr.Push(StackWord(off))]) == "    push " + ("QWORD [rsp + " + digits + "]\n") + "\n"
  {
    assert Text([Instr.Push(StackWord(off))]) == InstrText(Instr.Push(StackWord(off))) + Text([]);
  }
}

=== FILE: generator.dfy ===
/** The code generator. The source's `Generator` mutates an output stream, a
    counter `m_stack_size` and a binding table `m_vars`; here those three are one
    immutable state value that every emission function takes and returns. */
module Generator {
  import opened Common
  import opened Ast
  import opened Asm

  /** A `let` binding: the stack slot its value occupies, counted from the bottom. */
  datatype Var = Var(stackLoc: nat)

  datatype GenError =
    | UndeclaredIdentifier(name: string)
    | IdentifierAlreadyUsed(name: string)
    | MissingValue   // a literal or identifier token without text: `.value()` throws

  /** The generator's state: live stack slots, the binding table, and the code
      emitted so far. */
  datatype Gen = Gen(stackSize: nat, vars: map<string, Var>, out: seq<Instr>)

  /** The code `r` holds that `g` did not. */
  function Emitted(g: Gen, r: Gen): seq<Instr>
    requires g.out <= r.out
  {
    r.out[|g.out|..]
  }

  /** Every binding names a slot that is live. */
  predicate BindingsLive(g: Gen)
  {
    forall x :: x in g.vars ==> g.vars[x].stackLoc < g.stackSize
  }

  /** Distinct identifiers occupy distinct slots. */
  predicate SlotsDistinct(g: Gen)
  {
    forall x, y :: x in g.vars && y in g.vars && x != y ==> g.vars[x].stackLoc != g.vars[y].stackLoc
  }

  predicate Consistent(g: Gen)
  {
    BindingsLive(g) && SlotsDistinct(g)
  }

  // ---------------------------------------------------------------------------
  // The only two places that change the stack size

  function Push(g: Gen, src: Operand): (r: Gen)
    ensures r.stackSize == g.stackSize + 1 && r.vars == g.vars
    ensures g.out <= r.out && Emitted(g, r) == [Instr.Push(src)]
  {
    Gen(g.stackSize + 1, g.vars, g.out + [Instr.Push(src)])
  }

  /** The source decrements an unsigned counter; every call below is proved to
      find at least one live slot, so it never wraps. */
  function Pop(g: Gen, dst: Reg): (r: Gen)
    requires g.stackSize >= 1
    ensures r.stackSize + 1 == g.stackSize && r.vars == g.vars
    ensures g.out <= r.out && Emitted(g, r) == [Instr.Pop(dst)]
  {
    Gen(g.stackSize - 1, g.vars, g.out + [Instr.Pop(dst)])
  }

  /** Any other instruction leaves the stack size alone. */
  function Emit(g: Gen, i: Instr): (r: Gen)
    requires !i.Push? && !i.Pop?
    ensures r.stackSize == g.stackSize && r.vars == g.vars
    ensures g.out <= r.out && Emitted(g, r) == [i]
  {
    g.(out := g.out + [i])
  }

  // ---------------------------------------------------------------------------
  // Expressions

  /** Every token of the expression has text and every identifier is bound. */
  predicate Resolvable(e: Expr, vars: map<string, Var>)
  {
    match e
    case ExprTerm(TermIntLit(t)) => t.value.Some?
    case ExprTerm(TermIdent(t)) => t.value.Some? && t.value.value in vars
    case ExprBin(Add(l, r)) => Resolvable(l, vars) && Resolvable(r, vars)
  }

  /** The byte offset from the stack top of the word in slot `loc`. */
  function SlotOffset(stackSize: nat, loc: nat): int
  {
    (stackSize - loc - 1) * 8
  }

  function GenTerm(g: Gen, t: Term): (r: Result<Gen, GenError>)
    ensures r.Err? <==> !Resolvable(ExprTerm(t), g.vars)
    // which error: a token without text, else an identifier with no binding
    ensures TermToken(t).value.None? ==> r == Err(MissingValue)
    ensures t.TermIdent? && t.ident.value.Some? && t.ident.value.value !in g.vars ==>
      r == Err(UndeclaredIdentifier(t.ident.value.value))
    ensures r.Ok? ==> r.value.stackSize == g.stackSize + 1 && r.value.vars == g.vars
    ensures r.Ok? ==> g.out <= r.value.out
    ensures r.Ok? && t.TermIntLit? ==>
      Emitted(g, r.value) == [Mov(Rax, t.intLit.value.value), Instr.Push(RegOp(Rax))]
    // an identifier is one push that copies the word in the slot of its binding
    ensures r.Ok? && t.TermIdent? ==>
      var loc := g.vars[t.ident.value.value].stackLoc;
      && |Emitted(g, r.value)| == 1
      && Emitted(g, r.value)[0].Push?
      && Emitted(g, r.value)[0].src.StackWord?
      && var off := Emitted(g, r.value)[0].src.byteOffset;
      && off % 8 == 0
      && g.stackSize - 1 - off / 8 == loc
      && (loc < g.stackSize ==> 0 <= off)
  {
    match t
    case TermIntLit(tok) =>
      if tok.value.None? then Err(MissingValue)
      else Ok(Push(Emit(g, Mov(Rax, tok.value.value)), RegOp(Rax)))
    case TermIdent(tok) =>
      if tok.value.None? then Err(MissingValue)
      else if tok.value.value !in g.vars then Err(UndeclaredIdentifier(tok.value.value))
      else
        var v := g.vars[tok.value.value];
        Ok(Push(g, StackWord(SlotOffset(g.stackSize, v.stackLoc))))
  }

  /** A size measure for the mutual recursion between expressions and binary
      expressions. */
  function ExprSize(e: Expr): nat
  {
    match e
    case ExprTerm(_) => 1
    case ExprBin(b) => BinSize(b) + 1
  }

  function BinSize(b: BinExpr): nat
  {
    ExprSize(b.lhs) + ExprSize(b.rhs) + 1
  }

  function GenExpr(g: Gen, e: Expr): (r: Result<Gen, GenError>)
    ensures r.Err? <==> !Resolvable(e, g.vars)
    ensures r.Ok? ==> r.value.stackSize == g.stackSize + 1 && r.value.vars == g.vars
    ensures r.Ok? ==> g.out <= r.value.out
    decreases ExprSize(e)
  {
    match e
    case ExprTerm(t) => GenTerm(g, t)
    case ExprBin(b) => GenBinExpr(g, b)
  }

  /** `lhs`, then `rhs`, each leaving one word; pop both, add, push the sum. */
  function GenBinExpr(g: Gen, b: BinExpr): (r: Result<Gen, GenError>)
    ensures r.Err? <==> !Resolvable(ExprBin(b), g.vars)
    ensures r.Ok? ==> r.value.stackSize == g.stackSize + 1 && r.value.vars == g.vars
    ensures r.Ok? ==> g.out <= r.value.out
    decreases BinSize(b)
  {
    match b
    case Add(lhs, rhs) =>
      match GenExpr(g, lhs)
      case Err(e) => Err(e)
      case Ok(g1) =>
        match GenExpr(g1, rhs)
        case Err(e) => Err(e)
        case Ok(g2) =>
          // both operands are live above the starting depth
          assert g2.stackSize == g.stackSize + 2;
          var g3 := Pop(g2, Rax);
          var g4 := Pop(g3, Rbx);
          var g5 := Emit(g4, AddRegs(Rax, Rbx));
          Ok(Push(g5, RegOp(Rax)))
  }

  // ---------------------------------------------------------------------------
  // Statements

  /** `exit(e);` evaluates `e`, loads the exit system-call number and pops the
      status into `rdi`. `let x = e;` fails if `x` is bound; otherwise `x` names the
      slot that `e`'s value lands in, and becomes visible once `e` is emitted. */
  function GenStmt(g: Gen, s: Stmt): (r: Result<Gen, GenError>)
    ensures r.Ok? ==> g.out <= r.value.out
    ensures s.StmtExit? ==>
      (r.Err? <==> !Resolvable(s.expr, g.vars))
    ensures r.Ok? && s.StmtExit? ==> r.value.stackSize == g.stackSize && r.value.vars == g.vars
    ensures s.StmtLet? && s.ident.value.Some? && s.ident.value.value in g.vars ==>
      r == Err(IdentifierAlreadyUsed(s.ident.value.value))
    ensures s.StmtLet? && s.ident.value.Some? && s.ident.value.value !in g.vars ==>
      (r.Err? <==> !Resolvable(s.expr, g.vars))
    ensures r.Ok? && s.StmtLet? ==>
      && s.ident.value.Some?
      && s.ident.value.value !in g.vars
      && r.value.stackSize == g.stackSize + 1
      && r.value.vars == g.vars[s.ident.value.value := Var(g.stackSize)]
    ensures r.Ok? && Consistent(g) ==> Consistent(r.value)
  {
    match s
    case StmtExit(e) =>
      (match GenExpr(g, e)
       case Err(err) => Err(err)
       case Ok(g1) =>
         var g2 := Emit(g1, Mov(Rax, "60"));
         var g3 := Pop(g2, Rdi);
         Ok(Emit(g3, Syscall)))
    case StmtLet(id, e) =>
      if id.value.None? then Err(MissingValue)
      else if id.value.value in g.vars then Err(IdentifierAlreadyUsed(id.value.value))
      else
        var loc := g.stackSize;
        match GenExpr(g, e)
        case Err(err) => Err(err)
        case Ok(g1) => Ok(g1.(vars := g1.vars[id.value.value := Var(loc)]))
  }

  function GenStmts(g: Gen, stmts: seq<Stmt>): (r: Result<Gen, GenError>)
    ensures r.Ok? ==> g.out <= r.value.out
    ensures r.Ok? && Consistent(g) ==> Consistent(r.value)
    ensures r.Ok? ==> r.value.stackSize >= g.stackSize && g.vars.Keys <= r.value.vars.Keys
    // the first statement's code precedes the rest, and so on down the sequence
    ensures r.Ok? && |stmts| > 0 ==>
      GenStmt(g, stmts[0]).Ok? && GenStmt(g, stmts[0]).value.out <= r.value.out
    decreases |stmts|
  {
    if |stmts| == 0 then Ok(g)
    else
      match GenStmt(g, stmts[0])
      case Err(e) => Err(e)
      case Ok(g1) => GenStmts(g1, stmts[1..])
  }

  const Prologue: seq<Instr> := [Global("_start"), Label("_start")]

  /** Reached only when no `exit` statement ran: exit with status 0. */
  const Epilogue: seq<Instr> := [Mov(Rax, "60"), Mov(Rdi, "0"), Syscall]

  const Initial: Gen := Gen(0, map[], Prologue)

  /** `gen_prog`: the prologue, every statement in order, then the epilogue. */
  function GenProg(p: Prog): (r: Result<seq<Instr>, GenError>)
    ensures r.Ok? ==> |r.value| >= |Prologue| + |Epilogue|
    ensures r.Ok? ==> r.value[..|Prologue|] == Prologue
    ensures r.Ok? ==> r.value[|r.value| - |Epilogue|..] == Epilogue
    ensures r.Ok? <==> GenStmts(Initial, p.stmts).Ok?
  {
    match GenStmts(Initial, p.stmts)
    case Err(e) => Err(e)
    case Ok(g) => Ok(g.out + Epilogue)
  }

  predicate EndsWith(s: string, suffix: string)
  {
    |suffix| <= |s| && s[|s| - |suffix|..] == suffix
  }

  /** The lines `gen_prog` writes before the first statement. */
  const PrologueText: string := "global _start\n" + "_start:\n"

  /** The lines `gen_prog` writes after the last statement. */
  const EpilogueText: string := "    mov rax, 60\n" + "    mov rdi, 0\n" + "    syscall\n"

  /** The assembly text `gen_prog` returns: the entry point's declaration first
      and the exit with status 0 last, around the text of the statements. */
  function GenProgText(p: Prog): (r: Result<string, GenError>)
    ensures r.Ok? <==> GenProg(p).Ok?
    ensures r.Ok? ==> r.value == Text(GenProg(p).value)
    ensures r.Ok? ==> PrologueText <= r.value && EndsWith(r.value, EpilogueText)
    ensures r.Ok? ==> |PrologueText| + |EpilogueText| <= |r.value|
  {
    match GenProg(p)
    case Err(e) => Err(e)
    case Ok(code) =>
      FramedText(code);
      Ok(Text(code))
  }

  /** Code between the prologue and the epilogue renders between their texts. */
  lemma FramedText(code: seq<Instr>)
    requires |code| >= |Prologue| + |Epilogue|
    requires code[..|Prologue|] == Prologue && code[|code| - |Epilogue|..] == Epilogue
    ensures PrologueText <= Text(code) && EndsWith(Text(code), EpilogueText)
    ensures |PrologueText| + |EpilogueText| <= |Text(code)|
  {
    var body := code[|Prologue|..|code| - |Epilogue|];
    assert code == Prologue + body + Epilogue;
    TextAppend(Prologue + body, Epilogue);
    TextAppend(Prologue, body);
    PrologueRendered();
    EpilogueRendered();
  }

  lemma PrologueRendered()
    ensures Text(Prologue) == PrologueText
  {
    assert Prologue[1..][1..] == [];
  }

  lemma EpilogueRendered()
    ensures Text(Epilogue) == EpilogueText
  {
    Text3(Epilogue[0], Epilogue[1], Epilogue[2]);
    assert InstrText(Epilogue[0]) == "    mov rax, 60\n";
    assert InstrText(Epilogue[1]) == "    mov rdi, 0\n";
  }

  lemma Text3(a: Instr, b: Instr, c: Instr)
    ensures Text([a, b, c]) == InstrText(a) + InstrText(b) + InstrText(c)
  {
    assert [a, b, c][1..] == [b, c] && [b, c][1..] == [c] && [c][1..] == [];
    assert Text([c]) == InstrText(c);
    assert Text([b, c]) == InstrText(b) + InstrText(c);
  }

  // ---------------------------------------------------------------------------
  // Stack accounting of the emitted code

  /** Every `push QWORD [rsp + off]` in the code has a non-negative offset. */
  predicate OffsetsNonNegative(code: seq<Instr>)
  {
    forall i :: 0 <= i < |code| ==> (code[i].Push? && code[i].src.StackWord? ==> code[i].src.byteOffset >= 0)
  }

  lemma OffsetsNonNegativeAppend(a: seq<Instr>, b: seq<Instr>)
    requires OffsetsNonNegative(a) && OffsetsNonNegative(b)
    ensures OffsetsNonNegative(a + b)
  {
    forall i | 0 <= i < |a + b|
      ensures (a + b)[i].Push? && (a + b)[i].src.StackWord? ==> (a + b)[i].src.byteOffset >= 0
    {
      if i >= |a| {
        assert (a + b)[i] == b[i - |a|];
      }
    }
  }

  /** Emitted code for `g` then `h` is the code for `g` followed by the code for `h`. */
  lemma EmittedChain(g: Gen, h: Gen, k: Gen)
    requires g.out <= h.out <= k.out
    ensures Emitted(g, k) == Emitted(g, h) + Emitted(h, k)
  {
  }

  /** The code for an expression pushes exactly one word, never pops below the
      depth it started at, and, when every binding is live, copies only from
      words at or above the stack pointer. */
  lemma {:induction false} GenExprCode(g: Gen, e: Expr)
    requires GenExpr(g, e).Ok?
    ensures NetDepth(Emitted(g, GenExpr(g, e).value)) == 1
    ensures NeverBelow(Emitted(g, GenExpr(g, e).value), 0)
    ensures BindingsLive(g) ==> OffsetsNonNegative(Emitted(g, GenExpr(g, e).value))
    decreases ExprSize(e), 1
  {
    match e
    case ExprTerm(t) => GenTermCode(g, t);
    case ExprBin(b) => GenBinExprCode(g, b);
  }

  lemma GenTermCode(g: Gen, t: Term)
    requires GenTerm(g, t).Ok?
    ensures NetDepth(Emitted(g, GenTerm(g, t).value)) == 1
    ensures NeverBelow(Emitted(g, GenTerm(g, t).value), 0)
    ensures BindingsLive(g) ==> OffsetsNonNegative(Emitted(g, GenTerm(g, t).value))
  {
    var code := Emitted(g, GenTerm(g, t).value);
    var push := [code[|code| - 1]];
    assert push[0].Push?;
    StepCons(push[0], [], 1);
    assert push == [push[0]] + [];
    if t.TermIntLit? {
      assert code == [Mov(Rax, t.intLit.value.value)] + push;
      StepCons(Mov(Rax, t.intLit.value.value), push, 0);
    } else {
      assert code == push;
      StepCons(push[0], [], 0);
    }
  }

  /** Pop both operands, add, push the sum: from two words up, net one down. */
  lemma AddTail(depth: int)
    requires depth >= 2
    ensures NeverBelow(AddTailCode, depth) && NetDepth(AddTailCode) == -1
    ensures OffsetsNonNegative(AddTailCode)
  {
    var c := AddTailCode;
    StepCons(c[3], [], depth - 1);
    StepCons(c[2], [c[3]], depth - 2);
    StepCons(c[1], c[2..], depth - 1);
    StepCons(c[0], c[1..], depth);
    assert [c[3]] == [c[3]] + [];
    assert c[2..] == [c[2]] + [c[3]] && c[1..] == [c[1]] + c[2..] && c == [c[0]] + c[1..];
  }

  const AddTailCode: seq<Instr> := [Instr.Pop(Rax), Instr.Pop(Rbx), AddRegs(Rax, Rbx), Instr.Push(RegOp(Rax))]

  /** How the code for an addition is assembled from its operands' code. */
  lemma GenBinExprShape(g: Gen, b: BinExpr)
    requires GenBinExpr(g, b).Ok?
    ensures GenExpr(g, b.lhs).Ok?
    ensures GenExpr(GenExpr(g, b.lhs).value, b.rhs).Ok?
    ensures
      var g1 := GenExpr(g, b.lhs).value;
      var g2 := GenExpr(g1, b.rhs).value;
      Emitted(g, GenBinExpr(g, b).value) == Emitted(g, g1) + Emitted(g1, g2) + AddTailCode
  {
    var g1 := GenExpr(g, b.lhs).value;
    var g2 := GenExpr(g1, b.rhs).value;
    var g3 := Pop(g2, Rax);
    var g4 := Pop(g3, Rbx);
    var g5 := Emit(g4, AddRegs(Rax, Rbx));
    var r := Push(g5, RegOp(Rax));
    assert GenBinExpr(g, b).value == r;
    Snoc4(g2.out, AddTailCode[0], AddTailCode[1], AddTailCode[2], AddTailCode[3]);
    assert AddTailCode == [AddTailCode[0], AddTailCode[1], AddTailCode[2], AddTailCode[3]];
    EmittedChain(g, g1, g2);
    EmittedTail(g, g2, r, AddTailCode);
  }

  lemma Snoc4(s: seq<Instr>, a: Instr, b: Instr, c: Instr, d: Instr)
    ensures s + [a] + [b] + [c] + [d] == s + [a, b, c, d]
  {
  }

  /** Code emitted up to `h` and then a known tail. */
  lemma EmittedTail(g: Gen, h: Gen, r: Gen, tail: seq<Instr>)
    requires g.out <= h.out && r.out == h.out + tail
    ensures g.out <= r.out && Emitted(g, r) == Emitted(g, h) + tail
  {
  }

  lemma {:induction false} GenBinExprCode(g: Gen, b: BinExpr)
    requires GenBinExpr(g, b).Ok?
    ensures NetDepth(Emitted(g, GenBinExpr(g, b).value)) == 1
    ensures NeverBelow(Emitted(g, GenBinExpr(g, b).value), 0)
    ensures BindingsLive(g) ==> OffsetsNonNegative(Emitted(g, GenBinExpr(g, b).value))
    decreases BinSize(b), 0
  {
    var r := GenBinExpr(g, b).value;
    var g1 := GenExpr(g, b.lhs).value;
    var g2 := GenExpr(g1, b.rhs).value;
    GenBinExprShape(g, b);
    GenExprCode(g, b.lhs);
    GenExprCode(g1, b.rhs);
    AddCode(Emitted(g, g1), Emitted(g1, g2), BindingsLive(g));
  }

  /** Two operands' code followed by the addition. */
  lemma AddCode(c1: seq<Instr>, c2: seq<Instr>, live: bool)
    requires NetDepth(c1) == 1 && NeverBelow(c1, 0) && (live ==> OffsetsNonNegative(c1))
    requires NetDepth(c2) == 1 && NeverBelow(c2, 0) && (live ==> OffsetsNonNegative(c2))
    ensures NetDepth(c1 + c2 + AddTailCode) == 1 && NeverBelow(c1 + c2 + AddTailCode, 0)
    ensures live ==> OffsetsNonNegative(c1 + c2 + AddTailCode)
  {
    AddTail(2);
    NetDepthAppend(c1, c2);
    NetDepthAppend(c1 + c2, AddTailCode);
    NeverBelowRaise(c2, 0, 1);
    NeverBelowAppend(c1, c2, 0);
    NeverBelowAppend(c1 + c2, AddTailCode, 0);
    if live {
      OffsetsNonNegativeAppend(c1, c2);
      OffsetsNonNegativeAppend(c1 + c2, AddTailCode);
    }
  }

  const ExitTailCode: seq<Instr> := [Mov(Rax, "60"), Instr.Pop(Rdi), Syscall]

  /** Load the system-call number, pop the status, trap: from one word up, net one down. */
  lemma ExitTail(depth: int)
    requires depth >= 1
    ensures NeverBelow(ExitTailCode, depth) && NetDepth(ExitTailCode) == -1
    ensures OffsetsNonNegative(ExitTailCode)
  {
    var c := ExitTailCode;
    StepCons(c[2], [], depth - 1);
    StepCons(c[1], [c[2]], depth);
    StepCons(c[0], c[1..], depth);
    assert [c[2]] == [c[2]] + [] && c[1..] == [c[1]] + [c[2]] && c == [c[0]] + c[1..];
  }

  /** The same for a statement: the stack size equals the net pushes of the code
      emitted, nothing pops below the empty stack, and a state whose bindings are
      live emits only non-negative offsets. */
  lemma GenStmtCode(g: Gen, s: Stmt)
    requires GenStmt(g, s).Ok?
    ensures NetDepth(Emitted(g, GenStmt(g, s).value)) == GenStmt(g, s).value.stackSize - g.stackSize
    ensures NeverBelow(Emitted(g, GenStmt(g, s).value), g.stackSize)
    ensures BindingsLive(g) ==> OffsetsNonNegative(Emitted(g, GenStmt(g, s).value))
  {
    var r := GenStmt(g, s).value;
    var g1 := GenExpr(g, s.expr).value;
    GenExprCode(g, s.expr);
    var c1 := Emitted(g, g1);
    NeverBelowRaise(c1, 0, g.stackSize);
    if s.StmtExit? {
      GenExitShape(g, s);
      ExitCode(c1, g.stackSize, BindingsLive(g));
    } else {
      assert Emitted(g, r) == c1;
    }
  }

  /** The code for `exit(e);` is `e`'s code and then the exit sequence. */
  lemma GenExitShape(g: Gen, s: Stmt)
    requires s.StmtExit? && GenStmt(g, s).Ok?
    ensures GenExpr(g, s.expr).Ok?
    ensures Emitted(g, GenStmt(g, s).value) == Emitted(g, GenExpr(g, s.expr).value) + ExitTailCode
  {
    var g1 := GenExpr(g, s.expr).value;
    var g2 := Emit(g1, Mov(Rax, "60"));
    var g3 := Pop(g2, Rdi);
    var r := Emit(g3, Syscall);
    assert GenStmt(g, s).value == r;
    assert r.out == g1.out + ExitTailCode by {
      assert r.out == g1.out + [ExitTailCode[0]] + [ExitTailCode[1]] + [ExitTailCode[2]];
    }
    EmittedTail(g, g1, r, ExitTailCode);
  }

  /** An expression's code followed by the exit sequence. */
  lemma ExitCode(c1: seq<Instr>, depth: nat, live: bool)
    requires NetDepth(c1) == 1 && NeverBelow(c1, depth) && (live ==> OffsetsNonNegative(c1))
    ensures NetDepth(c1 + ExitTailCode) == 0 && NeverBelow(c1 + ExitTailCode, depth)
    ensures live ==> OffsetsNonNegative(c1 + ExitTailCode)
  {
    ExitTail(depth + 1);
    NetDepthAppend(c1, ExitTailCode);
    NeverBelowAppend(c1, ExitTailCode, depth);
    if live {
      OffsetsNonNegativeAppend(c1, ExitTailCode);
    }
  }

  /** The facts `GenStmtsCode` states, for code emitted from `g` to `k`. */
  predicate CodeAccounted(g: Gen, k: Gen)
    requires g.out <= k.out
  {
    && NetDepth(Emitted(g, k)) == k.stackSize - g.stackSize
    && NeverBelow(Emitted(g, k), g.stackSize)
    && (Consistent(g) ==> OffsetsNonNegative(Emitted(g, k)))
  }

  lemma CodeAccountedChain(g: Gen, h: Gen, k: Gen)
    requires g.out <= h.out <= k.out
    requires CodeAccounted(g, h) && CodeAccounted(h, k)
    requires Consistent(g) ==> Consistent(h)
    ensures CodeAccounted(g, k)
  {
    EmittedChain(g, h, k);
    NetDepthAppend(Emitted(g, h), Emitted(h, k));
    NeverBelowAppend(Emitted(g, h), Emitted(h, k), g.stackSize);
    if Consistent(g) {
      OffsetsNonNegativeAppend(Emitted(g, h), Emitted(h, k));
    }
  }

  lemma {:induction false} GenStmtsCode(g: Gen, stmts: seq<Stmt>)
    requires GenStmts(g, stmts).Ok?
    ensures CodeAccounted(g, GenStmts(g, stmts).value)
    decreases |stmts|
  {
    var r := GenStmts(g, stmts).value;
    if |stmts| == 0 {
      assert Emitted(g, r) == [];
    } else {
      var g1 := GenStmt(g, stmts[0]).value;
      assert r == GenStmts(g1, stmts[1..]).value;
      GenStmtCode(g, stmts[0]);
      GenStmtsCode(g1, stmts[1..]);
      CodeAccountedChain(g, g1, r);
    }
  }

  /** A whole program's code never pops an empty stack and never addresses a word
      below the stack pointer. */
  lemma GenProgCode(p: Prog)
    requires GenProg(p).Ok?
    ensures NeverBelow(GenProg(p).value, 0)
    ensures OffsetsNonNegative(GenProg(p).value)
  {
    var g := GenStmts(Initial, p.stmts).value;
    GenStmtsCode(Initial, p.stmts);
    assert Consistent(Initial);
    ProgramCode(Emitted(Initial, g), g.stackSize);
    assert g.out == Prologue + Emitted(Initial, g);
  }

  lemma ProgramCode(body: seq<Instr>, depth: nat)
    requires NetDepth(body) == depth && NeverBelow(body, 0) && OffsetsNonNegative(body)
    ensures NeverBelow(Prologue + body + Epilogue, 0)
    ensures OffsetsNonNegative(Prologue + body + Epilogue)
  {
    PrologueCode();
    EpilogueCode(depth);
    NeverBelowAppend(Prologue, body, 0);
    NetDepthAppend(Prologue, body);
    NeverBelowAppend(Prologue + body, Epilogue, 0);
    OffsetsNonNegativeAppend(Prologue, body);
    OffsetsNonNegativeAppend(Prologue + body, Epilogue);
  }

  lemma PrologueCode()
    ensures NeverBelow(Prologue, 0) && NetDepth(Prologue) == 0 && OffsetsNonNegative(Prologue)
  {
    assert Prologue[1..][1..] == [];
  }

  lemma EpilogueCode(depth: nat)
    ensures NeverBelow(Epilogue, depth) && OffsetsNonNegative(Epilogue)
  {
    StepCons(Syscall, [], depth);
    StepCons(Mov(Rdi, "0"), [Syscall], depth);
    StepCons(Mov(Rax, "60"), [Mov(Rdi, "0"), Syscall], depth);
    assert [Syscall] == [Syscall] + [];
    assert [Mov(Rdi, "0"), Syscall] == [Mov(Rdi, "0")] + [Syscall];
    assert Epilogue == [Mov(Rax, "60")] + [Mov(Rdi, "0"), Syscall];
  }
}

=== FILE: machine.dfy ===
/** An abstract reading of the emitted instructions: a stack of unbounded
    integers, the three registers the generator uses, and the one system call it
    makes. Straight-line code only; there are no jumps to model. */
module Machine {
  import opened Asm

  datatype Machine = Machine(stack: seq<int>, rax: int, rbx: int, rdi: int)

  /** A process at its entry point: an empty stack and cleared registers. */
  const Boot: Machine := Machine([], 0, 0, 0)

  datatype Status =
    | Running(m: Machine)
    | Halted(status: int)   // the exit system call ran with this status
    | Stuck                 // a pop of an empty stack, a bad address, an unknown system call

  /** The Linux x86-64 system-call number of `exit`. */
  const SysExit: int := 60

  function Get(m: Machine, r: Reg): int
  {
    match r
    case Rax => m.rax
    case Rbx => m.rbx
    case Rdi => m.rdi
  }

  function Set(m: Machine, r: Reg, v: int): (m': Machine)
    ensures Get(m', r) == v && m'.stack == m.stack
  {
    match r
    case Rax => m.(rax := v)
    case Rbx => m.(rbx := v)
    case Rdi => m.(rdi := v)
  }

  /** The word `byteOffset` bytes above the stack pointer, if it is on the stack. */
  predicate Addressable(m: Machine, byteOffset: int)
  {
    0 <= byteOffset && byteOffset % 8 == 0 && byteOffset / 8 < |m.stack|
  }

  function Step(i: Instr, m: Machine): Status
  {
    match i
    case Global(_) => Running(m)
    case Label(_) => Running(m)
    case Mov(dst, imm) => Running(Set(m, dst, Decimal(imm)))
    case Push(RegOp(r)) => Running(m.(stack := m.stack + [Get(m, r)]))
    case Push(StackWord(off)) =>
      if Addressable(m, off) then Running(m.(stack := m.stack + [m.stack[|m.stack| - 1 - off / 8]]))
      else Stuck
    case Pop(dst) =>
      if |m.stack| == 0 then Stuck
      else Running(Set(m.(stack := m.stack[..|m.stack| - 1]), dst, m.stack[|m.stack| - 1]))
    case AddRegs(dst, addend) => Running(Set(m, dst, Get(m, dst) + Get(m, addend)))
    case Syscall => if m.rax == SysExit then Halted(m.rdi) else Stuck
  }

  /** Run straight-line code; once halted or stuck, the rest does nothing. */
  function Exec(code: seq<Instr>, s: Status): Status
  {
    if |code| == 0 then s
    else
      match s
      case Running(m) => Exec(code[1..], Step(code[0], m))
      case _ => s
  }

  lemma {:induction false} ExecAppend(a: seq<Instr>, b: seq<Instr>, s: Status)
    ensures Exec(a + b, s) == Exec(b, Exec(a, s))
    decreases |a|
  {
    if |a| == 0 {
      assert a + b == b;
    } else if s.Running? {
      assert (a + b)[0] == a[0] && (a + b)[1..] == a[1..] + b;
      ExecAppend(a[1..], b, Step(a[0], s.m));
    } else {
      assert Exec(b, s) == s by {
        if |b| != 0 {}
      }
    }
  }

  lemma ExecCons(i: Instr, rest: seq<Instr>, m: Machine)
    ensures Exec([i] + rest, Running(m)) == Exec(rest, Step(i, m))
  {
    assert ([i] + rest)[0] == i && ([i] + rest)[1..] == rest;
  }

  lemma ExecHalted(code: seq<Instr>, status: int)
    ensures Exec(code, Halted(status)) == Halted(status)
  {
  }
}

=== FILE: parser.dfy ===
/** The recursive-descent parser. The source's `Parser` object holds an immutable
    token vector and a mutable cursor `m_index`; here the cursor is threaded
    explicitly: every parse function takes `(toks, idx)` and reports where it
    stopped. */
module Parser {
  import opened Common
  import opened Tokens
  import opened Ast

  /** The fatal diagnostics of the parser. */
  datatype ParseError =
    | ExpectedExpression      // `+` with nothing parsable after it
    | InvalidExpression       // `exit(` or `let x =` not followed by an expression
    | Expected(kind: TokenType) // the message overload of `try_consume` failed
    | InvalidStatement        // `parse_prog` found tokens that start no statement

  /** The text the source writes to the error stream before exiting. */
  function Message(e: ParseError): string
  {
    match e
    case ExpectedExpression => "Expected expression"
    case InvalidExpression => "Invalid expression"
    case Expected(CloseParen) => "Expected `)` `semi`"
    case Expected(_) => "Expected `;` `semi`"
    case InvalidStatement => "Invalid statement"
  }

  /** The three outcomes of a parse function: a node and the cursor after it; an
      empty `std::optional` (the cursor is then where it was); or a fatal error. */
  datatype Parsed<+T> =
    | Match(node: T, next: nat)
    | NoMatch
    | Fatal(error: ParseError)

  // ---------------------------------------------------------------------------
  // Cursor primitives

  /** `peek(offset)`: the token `offset` places after the cursor, if any. */
  function Peek(toks: seq<Token>, idx: nat, offset: nat): (r: Option<Token>)
    ensures r.None? <==> idx + offset >= |toks|
    ensures r.Some? ==> r.value == toks[idx + offset]
  {
    if idx + offset >= |toks| then None else Some(toks[idx + offset])
  }

  /** True when the token at `idx + offset` exists and has the given kind. */
  predicate PeekIs(toks: seq<Token>, idx: nat, offset: nat, kind: TokenType)
  {
    Peek(toks, idx, offset).Some? && Peek(toks, idx, offset).value.kind == kind
  }

  /** `consume()`: the token at the cursor, and the cursor one further. The
      source indexes with `at`, so a call past the end would throw; every caller
      below proves a token is there. */
  function Consume(toks: seq<Token>, idx: nat): (r: (Token, nat))
    requires idx < |toks|
    ensures r.1 == idx + 1 <= |toks|
    ensures Peek(toks, idx, 0) == Some(r.0)
  {
    (toks[idx], idx + 1)
  }

  /** `try_consume(type)`: consume the next token if it has the given kind. */
  function TryConsume(toks: seq<Token>, idx: nat, kind: TokenType): (r: Option<(Token, nat)>)
    requires idx <= |toks|
    ensures r.Some? <==> idx < |toks| && toks[idx].kind == kind
    ensures r.Some? ==> r.value == (toks[idx], idx + 1)
  {
    if PeekIs(toks, idx, 0, kind) then Some(Consume(toks, idx)) else None
  }

  /** `try_consume(type, err_msg)`: as `TryConsume`, but a mismatch is fatal. */
  function TryConsumeOrFail(toks: seq<Token>, idx: nat, kind: TokenType): (r: Parsed<Token>)
    requires idx <= |toks|
    ensures !r.NoMatch?
    ensures r.Match? <==> idx < |toks| && toks[idx].kind == kind
    ensures r.Match? ==> r.node == toks[idx] && r.next == idx + 1
    ensures r.Fatal? ==> r.error == Expected(kind)
  {
    match TryConsume(toks, idx, kind)
    case Some((t, j)) => Match(t, j)
    case None => Fatal(Expected(kind))
  }

  // ---------------------------------------------------------------------------
  // Grammar
  //   prog := stmt*
  //   stmt := "exit" "(" expr ")" ";" | "let" ident "=" expr ";"
  //   expr := term ( "+" expr )?
  //   term := int_lit | ident

  /** True when the token at `idx` can start a term. */
  predicate StartsTerm(toks: seq<Token>, idx: nat)
  {
    idx < |toks| && toks[idx].kind in {IntLit, Ident}
  }

  function ParseTerm(toks: seq<Token>, idx: nat): (r: Parsed<Term>)
    requires idx <= |toks|
    ensures !r.Fatal?
    ensures r.Match? <==> StartsTerm(toks, idx)
    ensures r.Match? ==> r.next == idx + 1
    ensures r.Match? ==> TermToken(r.node) == toks[idx] && WellFormedTerm(r.node)
  {
    match TryConsume(toks, idx, IntLit)
    case Some((t, j)) => Match(TermIntLit(t), j)
    case None =>
      if PeekIs(toks, idx, 0, Ident) then
        var (t, j) := Consume(toks, idx);
        Match(TermIdent(t), j)
      else
        NoMatch
  }

  function ParseExpr(toks: seq<Token>, idx: nat): (r: Parsed<Expr>)
    requires idx <= |toks|
    ensures r.NoMatch? <==> !StartsTerm(toks, idx)
    ensures r.Fatal? ==> r.error == ExpectedExpression
    ensures r.Match? ==> idx < r.next <= |toks| && WellFormedExpr(r.node)
    // an expression stops only where no `+` follows
    ensures r.Match? ==> !PeekIs(toks, r.next, 0, Plus)
    decreases |toks| - idx
  {
    var t := ParseTerm(toks, idx);
    if !t.Match? then NoMatch
    else
      match TryConsume(toks, t.next, Plus)
      case None => Match(ExprTerm(t.node), t.next)
      case Some((_, j)) =>
        match ParseExpr(toks, j)
        case Match(rhs, k) => Match(ExprBin(Add(ExprTerm(t.node), rhs)), k)
        case NoMatch => Fatal(ExpectedExpression)
        case Fatal(e) => Fatal(e)
  }

  /** The shape `parse_expr` gives: `term + rest` is `Add(term, rest)`, a lone term
      is itself, and a `+` with no expression after it is fatal. */
  lemma ParseExprShape(toks: seq<Token>, idx: nat)
    requires idx <= |toks|
    ensures var r := ParseExpr(toks, idx);
      && (r.Match? && PeekIs(toks, idx, 1, Plus) ==>
            && r.node.ExprBin?
            && r.node.bin.lhs == ExprTerm(ParseTerm(toks, idx).node)
            && ParseExpr(toks, idx + 2) == Match(r.node.bin.rhs, r.next))
      && (r.Match? && !PeekIs(toks, idx, 1, Plus) ==> r == Match(ExprTerm(ParseTerm(toks, idx).node), idx + 1))
      && (r.Fatal? <==> StartsTerm(toks, idx) && PeekIs(toks, idx, 1, Plus) && !ParseExpr(toks, idx + 2).Match?)
  {
  }

  /** The lookahead that selects `exit ( expr ) ;`. */
  predicate ExitAhead(toks: seq<Token>, idx: nat)
  {
    PeekIs(toks, idx, 0, Exit) && PeekIs(toks, idx, 1, OpenParen)
  }

  /** The lookahead that selects `let ident = expr ;`. */
  predicate LetAhead(toks: seq<Token>, idx: nat)
  {
    PeekIs(toks, idx, 0, Let) && PeekIs(toks, idx, 1, Ident) && PeekIs(toks, idx, 2, Eq)
  }

  /** Finish a statement whose expression ended at `idx`: expect `)` (only for
      `exit`) and then `;`. */
  function ParseStmtTail(toks: seq<Token>, idx: nat, closeParen: bool, s: Stmt): (r: Parsed<Stmt>)
    requires idx <= |toks|
    ensures !r.NoMatch?
    ensures r.Match? ==> r.node == s && r.next == idx + (if closeParen then 2 else 1) <= |toks|
    ensures r.Match? ==> toks[r.next - 1].kind == Semi
    ensures r.Match? && closeParen ==> toks[idx].kind == CloseParen
    ensures r.Fatal? ==> r.error in {Expected(CloseParen), Expected(Semi)}
  {
    var afterParen := if closeParen then TryConsumeOrFail(toks, idx, CloseParen) else Match(Bare(CloseParen), idx);
    match afterParen
    case Fatal(e) => Fatal(e)
    case Match(_, j) =>
      match TryConsumeOrFail(toks, j, Semi)
      case Match(_, k) => Match(s, k)
      case Fatal(e) => Fatal(e)
  }

  /** `parse_stmt`. The source reads `peek().value()` without checking that a
      token is there; its only caller, `parse_prog`, calls it while tokens remain. */
  function ParseStmt(toks: seq<Token>, idx: nat): (r: Parsed<Stmt>)
    requires idx < |toks|
    ensures r.NoMatch? <==> !ExitAhead(toks, idx) && !LetAhead(toks, idx)
    ensures r.Match? ==> idx < r.next <= |toks| && WellFormedStmt(r.node)
    ensures r.Match? ==> toks[r.next - 1].kind == Semi
  {
    if Peek(toks, idx, 0).value.kind == Exit && PeekIs(toks, idx, 1, OpenParen) then
      var (_, i1) := Consume(toks, idx);
      var (_, i2) := Consume(toks, i1);
      match ParseExpr(toks, i2)
      case NoMatch => Fatal(InvalidExpression)
      case Fatal(e) => Fatal(e)
      case Match(e, i3) => ParseStmtTail(toks, i3, true, StmtExit(e))
    else if LetAhead(toks, idx) then
      var (_, i1) := Consume(toks, idx);
      var (id, i2) := Consume(toks, i1);
      var (_, i3) := Consume(toks, i2);
      match ParseExpr(toks, i3)
      case NoMatch => Fatal(InvalidExpression)
      case Fatal(e) => Fatal(e)
      case Match(e, i4) => ParseStmtTail(toks, i4, false, StmtLet(id, e))
    else
      NoMatch
  }

  /** `parse_prog` gives up on the first tokens that start no statement. */
  lemma ParseProgInvalid(toks: seq<Token>)
    requires toks != [] && !ExitAhead(toks, 0) && !LetAhead(toks, 0)
    ensures ParseProg(toks) == Err(InvalidStatement)
  {
    assert ParseStmt(toks, 0).NoMatch?;
  }

  /** On every pass of the `parse_prog` loop, not only the first, tokens that
      start no statement stop the parse with "Invalid statement". */
  lemma ParseStmtsInvalid(toks: seq<Token>, idx: nat)
    requires idx < |toks| && !ExitAhead(toks, idx) && !LetAhead(toks, idx)
    ensures ParseStmts(toks, idx) == Err(InvalidStatement)
  {
    assert ParseStmt(toks, idx).NoMatch?;
  }

  /** What a parsed statement is made of: the branch its lookahead chose, and the
      expression `parse_expr` finds after the keyword tokens. */
  lemma ParseStmtShape(toks: seq<Token>, idx: nat)
    requires idx < |toks| && ParseStmt(toks, idx).Match?
    ensures var r := ParseStmt(toks, idx);
      && (r.node.StmtExit? ==>
            && ExitAhead(toks, idx)
            && ParseExpr(toks, idx + 2) == Match(r.node.expr, r.next - 2)
            && toks[r.next - 2].kind == CloseParen)
      && (r.node.StmtLet? ==>
            && LetAhead(toks, idx) && r.node.ident == toks[idx + 1]
            && ParseExpr(toks, idx + 3) == Match(r.node.expr, r.next - 1))
  {
  }

  /** How `parse_stmt` fails: once a branch is chosen by lookahead, a missing
      expression is fatal, and so are a missing `)` or `;`. */
  lemma ParseStmtFatal(toks: seq<Token>, idx: nat)
    requires idx < |toks|
    ensures ExitAhead(toks, idx) && !StartsTerm(toks, idx + 2) ==> ParseStmt(toks, idx) == Fatal(InvalidExpression)
    ensures !ExitAhead(toks, idx) && LetAhead(toks, idx) && !StartsTerm(toks, idx + 3) ==>
      ParseStmt(toks, idx) == Fatal(InvalidExpression)
    ensures ParseStmt(toks, idx).Fatal? ==>
      ParseStmt(toks, idx).error in {ExpectedExpression, InvalidExpression, Expected(CloseParen), Expected(Semi)}
  {
  }

  /** The loop of `parse_prog` from cursor `idx`: parse statements while tokens
      remain. On success it returns the statements in source order together with
      the final cursor. */
  function ParseStmts(toks: seq<Token>, idx: nat): (r: Result<(seq<Stmt>, nat), ParseError>)
    requires idx <= |toks|
    ensures r.Ok? ==> r.value.1 == |toks|
    ensures r.Ok? ==> WellFormedStmts(r.value.0)
    ensures r.Ok? ==> |r.value.0| <= |toks| - idx
    decreases |toks| - idx
  {
    if Peek(toks, idx, 0).None? then Ok(([], idx))
    else
      match ParseStmt(toks, idx)
      case NoMatch => Err(InvalidStatement)
      case Fatal(e) => Err(e)
      case Match(s, j) =>
        match ParseStmts(toks, j)
        case Ok((rest, k)) => Ok(([s] + rest, k))
        case Err(e) => Err(e)
  }

  /** `parse_prog`. */
  function ParseProg(toks: seq<Token>): (r: Result<Prog, ParseError>)
    ensures r.Ok? ==> WellFormedProg(r.value)
    ensures toks == [] ==> r == Ok(Prog([]))
  {
    match ParseStmts(toks, 0)
    case Ok((stmts, _)) => Ok(Prog(stmts))
    case Err(e) => Err(e)
  }
}

=== FILE: scenarios.dfy ===
/** Whole programs, from tokens to exit status or to the error that stops the
    compiler. */
module Scenarios {
  import opened Common
  import opened Tokens
  import opened Ast
  import opened Parser
  import opened Unparse
  import opened Asm
  import opened Generator
  import opened Machine
  import opened Semantics
  import opened Compiler

  const X: Expr := ExprTerm(TermIdent(Name("x")))
  const Y: Expr := ExprTerm(TermIdent(Name("y")))
  const LetX1: Stmt := StmtLet(Name("x"), ExprTerm(TermIntLit(Lit("1"))))
  const LetY2: Stmt := StmtLet(Name("y"), ExprTerm(TermIntLit(Lit("2"))))
  const LetX2: Stmt := StmtLet(Name("x"), ExprTerm(TermIntLit(Lit("2"))))

  const LetX1Tokens: seq<Token> := [Bare(Let), Name("x"), Bare(Eq), Lit("1"), Bare(Semi)]

  /** `let x = 1; let y = 2; exit(x+y);` */
  const SumTokens: seq<Token> :=
    LetX1Tokens + [Bare(Let), Name("y"), Bare(Eq), Lit("2"), Bare(Semi),
                   Bare(Exit), Bare(OpenParen), Name("x"), Bare(Plus), Name("y"), Bare(CloseParen), Bare(Semi)]

  /** `let x = 1; let x = 2; exit(x);` */
  const RebindTokens: seq<Token> :=
    LetX1Tokens + [Bare(Let), Name("x"), Bare(Eq), Lit("2"), Bare(Semi),
                   Bare(Exit), Bare(OpenParen), Name("x"), Bare(CloseParen), Bare(Semi)]

  /** `let x = 1; let y = 2; exit(x+y);` exits with 3: the copy of `x` is read
      from below `y`'s slot and the copy of `y`. */
  lemma SumOfBindings(m: Machine)
    requires m.stack == []
    ensures Compile(SumTokens).Ok?
    ensures Exec(Compile(SumTokens).value, Running(m)) == Halted(3)
  {
    var p := Prog([LetX1, LetY2, StmtExit(ExprBin(Add(X, Y)))]);
    SumParses(p);
    SumRuns(p);
    SumGenerates(p);
    CompiledProgramExits(SumTokens, m);
  }

  lemma SumParses(p: Prog)
    requires p == Prog([LetX1, LetY2, StmtExit(ExprBin(Add(X, Y)))])
    ensures ParseProg(SumTokens) == Ok(p)
  {
    var sum := ExprBin(Add(X, Y));
    ProgTokens3(LetX1, LetY2, StmtExit(sum));
    assert ExprTokens(sum) == [Name("x"), Bare(Plus), Name("y")];
    var b := [Bare(Let), Name("y"), Bare(Eq), Lit("2"), Bare(Semi)];
    var c := [Bare(Exit), Bare(OpenParen), Name("x"), Bare(Plus), Name("y"), Bare(CloseParen), Bare(Semi)];
    assert StmtTokens(LetX1) == LetX1Tokens && StmtTokens(LetY2) == b && StmtTokens(StmtExit(sum)) == c;
    assert SumTokens == LetX1Tokens + b + c;
    ParseUnparse(p);
  }

  lemma SumRuns(p: Prog)
    requires p == Prog([LetX1, LetY2, StmtExit(ExprBin(Add(X, Y)))])
    ensures ExitStatus(p) == Some(3)
  {
    assert Decimal("1") == 1 && Decimal("2") == 2 by {
      assert "1"[..0] == "" && "2"[..0] == "";
    }
    var s2 := p.stmts[2];
    var env := map["x" := 1, "y" := 2];
    assert ExecStmt(s2, env) == Exited(3);
    assert Run([s2], env) == Exited(3);
    assert ExecStmt(LetY2, map["x" := 1]) == Finished(env);
    assert Run([LetY2, s2], map["x" := 1]) == Exited(3) by {
      assert [LetY2, s2][1..] == [s2];
    }
    assert ExecStmt(LetX1, map[]) == Finished(map["x" := 1]);
    assert p.stmts[1..] == [LetY2, s2];
  }

  lemma SumGenerates(p: Prog)
    requires p == Prog([LetX1, LetY2, StmtExit(ExprBin(Add(X, Y)))])
    ensures GenProg(p).Ok?
  {
    var s2 := p.stmts[2];
    var g0 := GenStmt(Initial, LetX1).value;
    var g1 := GenStmt(g0, LetY2).value;
    assert GenStmt(g1, s2).Ok?;
    assert GenStmts(g1, [s2]).Ok?;
    assert GenStmts(g0, [LetY2, s2]).Ok? by {
      assert [LetY2, s2][1..] == [s2];
    }
    assert p.stmts[1..] == [LetY2, s2];
  }

  /** `let x = 1; let x = 2; exit(x);` stops the compiler: `x` is already bound. */
  lemma DuplicateBinding()
    ensures Compile(RebindTokens) == Err(Semantic(IdentifierAlreadyUsed("x")))
  {
    var p := Prog([LetX1, LetX2, StmtExit(X)]);
    RebindParses(p);
    RebindFails(p);
  }

  lemma RebindParses(p: Prog)
    requires p == Prog([LetX1, LetX2, StmtExit(X)])
    ensures ParseProg(RebindTokens) == Ok(p)
  {
    ProgTokens3(LetX1, LetX2, StmtExit(X));
    var b := [Bare(Let), Name("x"), Bare(Eq), Lit("2"), Bare(Semi)];
    var c := [Bare(Exit), Bare(OpenParen), Name("x"), Bare(CloseParen), Bare(Semi)];
    assert StmtTokens(LetX1) == LetX1Tokens && StmtTokens(LetX2) == b && StmtTokens(StmtExit(X)) == c;
    assert RebindTokens == LetX1Tokens + b + c;
    ParseUnparse(p);
  }

  lemma RebindFails(p: Prog)
    requires p == Prog([LetX1, LetX2, StmtExit(X)])
    ensures GenProg(p) == Err(IdentifierAlreadyUsed("x"))
  {
    var g0 := GenStmt(Initial, LetX1).value;
    assert "x" in g0.vars;
    assert GenStmt(g0, LetX2) == Err(IdentifierAlreadyUsed("x"));
    assert GenStmts(g0, [LetX2, StmtExit(X)]) == Err(IdentifierAlreadyUsed("x"));
    assert p.stmts[1..] == [LetX2, StmtExit(X)];
  }

  /** `exit(x);` with no binding of `x` stops the compiler. */
  lemma UndeclaredReference()
    ensures Compile([Bare(Exit), Bare(OpenParen), Name("x"), Bare(CloseParen), Bare(Semi)])
            == Err(Semantic(UndeclaredIdentifier("x")))
  {
    var p := Prog([StmtExit(X)]);
    assert ProgTokens(p.stmts) == [Bare(Exit), Bare(OpenParen), Name("x"), Bare(CloseParen), Bare(Semi)] by {
      assert p.stmts[1..] == [];
    }
    ParseUnparse(p);
  }

  /** `let x = 1; exit(x` stops the parser at the missing `)`, with the
      diagnostic the source writes for it. */
  lemma MissingCloseParen()
    ensures Compile(LetX1Tokens + [Bare(Exit), Bare(OpenParen), Name("x")]) == Err(Syntax(Expected(CloseParen)))
    ensures Message(Compile(LetX1Tokens + [Bare(Exit), Bare(OpenParen), Name("x")]).error.parseError)
      == "Expected `)` `semi`"
  {
    var toks := LetX1Tokens + [Bare(Exit), Bare(OpenParen), Name("x")];
    assert ParseStmt(toks, 0) == Match(LetX1, 5);
    assert ParseExpr(toks, 7) == Match(X, 8);
    assert ParseStmt(toks, 5) == Fatal(Expected(CloseParen));
    assert ParseStmts(toks, 5) == Err(Expected(CloseParen));
  }

  /** `let x = 1; )`: the second pass of the statement loop finds no statement,
      and the parse stops with "Invalid statement". */
  lemma InvalidSecondStatement()
    ensures ParseProg(LetX1Tokens + [Bare(CloseParen)]) == Err(InvalidStatement)
    ensures Message(ParseProg(LetX1Tokens + [Bare(CloseParen)]).error) == "Invalid statement"
  {
    var toks := LetX1Tokens + [Bare(CloseParen)];
    assert ParseStmt(toks, 0) == Match(LetX1, 5);
    ParseStmtsInvalid(toks, 5);
  }

  lemma ProgTokens3(a: Stmt, b: Stmt, c: Stmt)
    ensures ProgTokens([a, b, c]) == StmtTokens(a) + StmtTokens(b) + StmtTokens(c)
  {
    assert [a, b, c][1..] == [b, c] && [b, c][1..] == [c] && [c][1..] == [];
    assert ProgTokens([c]) == StmtTokens(c) + [];
    assert StmtTokens(c) + [] == StmtTokens(c);
    assert ProgTokens([b, c]) == StmtTokens(b) + StmtTokens(c);
  }
}

=== FILE: semantics.dfy ===
/** What a program of the source language means: the status it exits with. */
module Semantics {
  import opened Common
  import opened Ast
  import opened Asm

  /** The value of an expression; `None` when a token has no text or an
      identifier is unbound. Literals are read as decimal. */
  function Eval(e: Expr, env: map<string, int>): Option<int>
  {
    match e
    case ExprTerm(TermIntLit(t)) => if t.value.Some? then Some(Decimal(t.value.value)) else None
    case ExprTerm(TermIdent(t)) =>
      if t.value.Some? && t.value.value in env then Some(env[t.value.value]) else None
    case ExprBin(Add(l, r)) =>
      match (Eval(l, env), Eval(r, env))
      case (Some(a), Some(b)) => Some(a + b)
      case _ => None
  }

  datatype Outcome =
    | Exited(status: int)               // an `exit` ran
    | Finished(env: map<string, int>)   // every statement ran; the bindings at the end
    | Failed                            // an unbound or rebound identifier

  /** Execute one statement. A name may be bound only once. */
  function ExecStmt(s: Stmt, env: map<string, int>): Outcome
  {
    match s
    case StmtExit(e) => if Eval(e, env).Some? then Exited(Eval(e, env).value) else Failed
    case StmtLet(id, e) =>
      if id.value.None? || id.value.value in env || Eval(e, env).None? then Failed
      else Finished(env[id.value.value := Eval(e, env).value])
  }

  /** Execute statements in order until one exits. */
  function Run(stmts: seq<Stmt>, env: map<string, int>): Outcome
    decreases |stmts|
  {
    if |stmts| == 0 then Finished(env)
    else
      match ExecStmt(stmts[0], env)
      case Finished(env1) => Run(stmts[1..], env1)
      case other => other
  }

  /** The status a program exits with: that of the first `exit` reached, or 0. */
  function ExitStatus(p: Prog): Option<int>
  {
    match Run(p.stmts, map[])
    case Exited(status) => Some(status)
    case Finished(_) => Some(0)
    case Failed => None
  }
}

=== FILE: tokens.dfy ===
/** The token stream the parser consumes. The tokenizer itself is not part of
    this model: a token is just a kind plus an optional text payload. */
module Tokens {
  import opened Common

  datatype TokenType =
    | IntLit
    | Ident
    | Exit
    | Let
    | OpenParen
    | CloseParen
    | Semi
    | Eq
    | Plus

  /** `value` holds the literal's digits or the identifier's name. */
  datatype Token = Token(kind: TokenType, value: Option<string>)

  /** A token that carries no payload, as the tokenizer produces for keywords
      and punctuation. */
  function Bare(kind: TokenType): Token
  {
    Token(kind, None)
  }

  /** An integer literal token with its digits. */
  function Lit(text: string): Token
  {
    Token(IntLit, Some(text))
  }

  /** An identifier token with its name. */
  function Name(text: string): Token
  {
    Token(Ident, Some(text))
  }
}

=== FILE: unparse.dfy ===
/** Rendering an AST back to tokens, and the round trip with the parser in both
    directions. */
module Unparse {
  import opened Common
  import opened Tokens
  import opened Ast
  import opened Parser

  function ExprTokens(e: Expr): (r: seq<Token>)
    ensures |r| >= 1
  {
    match e
    case ExprTerm(t) => [TermToken(t)]
    case ExprBin(Add(l, rhs)) => ExprTokens(l) + [Bare(Plus)] + ExprTokens(rhs)
  }

  function StmtTokens(s: Stmt): seq<Token>
  {
    match s
    case StmtExit(e) => [Bare(Exit), Bare(OpenParen)] + ExprTokens(e) + [Bare(CloseParen), Bare(Semi)]
    case StmtLet(id, e) => [Bare(Let), id, Bare(Eq)] + ExprTokens(e) + [Bare(Semi)]
  }

  function ProgTokens(stmts: seq<Stmt>): seq<Token>
  {
    if |stmts| == 0 then [] else StmtTokens(stmts[0]) + ProgTokens(stmts[1..])
  }

  /** Keywords and punctuation carry no payload; only literals and identifiers do. */
  predicate Canonical(toks: seq<Token>)
  {
    forall i :: 0 <= i < |toks| ==> (toks[i].kind !in {IntLit, Ident} ==> toks[i].value.None?)
  }

  /** `w` occurs in `toks` starting at position `idx`. */
  predicate TokensAt(toks: seq<Token>, idx: nat, w: seq<Token>)
    decreases |w|
  {
    idx + |w| <= |toks| && (|w| == 0 || (toks[idx] == w[0] && TokensAt(toks, idx + 1, w[1..])))
  }

  lemma {:induction false} TokensAtConcat(toks: seq<Token>, idx: nat, a: seq<Token>, b: seq<Token>)
    ensures TokensAt(toks, idx, a + b) <==> TokensAt(toks, idx, a) && TokensAt(toks, idx + |a|, b)
    decreases |a|
  {
    if |a| == 0 {
      assert a + b == b;
    } else {
      assert (a + b)[0] == a[0] && (a + b)[1..] == a[1..] + b;
      TokensAtConcat(toks, idx + 1, a[1..], b);
    }
  }

  /** `TokensAt` read position by position. */
  lemma {:induction false} TokensAtPointwise(toks: seq<Token>, idx: nat, w: seq<Token>)
    ensures TokensAt(toks, idx, w) <==>
      idx + |w| <= |toks| && forall k :: 0 <= k < |w| ==> toks[idx + k] == w[k]
    decreases |w|
  {
    if |w| != 0 {
      TokensAtPointwise(toks, idx + 1, w[1..]);
      if idx + |w| <= |toks| && forall k :: 0 <= k < |w| ==> toks[idx + k] == w[k] {
        assert toks[idx + 0] == w[0];
        forall k | 0 <= k < |w| - 1
          ensures toks[idx + 1 + k] == w[1..][k]
        {
          assert toks[idx + (k + 1)] == w[k + 1];
        }
      }
      if TokensAt(toks, idx, w) {
        forall k | 0 <= k < |w|
          ensures toks[idx + k] == w[k]
        {
          if k > 0 {
            assert toks[idx + 1 + (k - 1)] == w[1..][k - 1];
          }
        }
      }
    }
  }

  lemma Tokens2At(toks: seq<Token>, idx: nat, t0: Token, t1: Token)
    ensures TokensAt(toks, idx, [t0, t1]) <==> idx + 1 < |toks| && toks[idx] == t0 && toks[idx + 1] == t1
  {
    TokensAtPointwise(toks, idx, [t0, t1]);
    if idx + 1 < |toks| && toks[idx] == t0 && toks[idx + 1] == t1 {
      assert toks[idx + 0] == t0;
    }
  }

  lemma Tokens3At(toks: seq<Token>, idx: nat, t0: Token, t1: Token, t2: Token)
    ensures TokensAt(toks, idx, [t0, t1, t2]) <==>
      idx + 2 < |toks| && toks[idx] == t0 && toks[idx + 1] == t1 && toks[idx + 2] == t2
  {
    var w := [t0, t1, t2];
    TokensAtPointwise(toks, idx, w);
    if idx + 2 < |toks| && toks[idx] == t0 && toks[idx + 1] == t1 && toks[idx + 2] == t2 {
      forall k | 0 <= k < 3 ensures toks[idx + k] == w[k] {
        if k == 0 { assert toks[idx + k] == toks[idx]; }
      }
    }
    if TokensAt(toks, idx, w) {
      assert toks[idx + 0] == w[0] && toks[idx + 1] == w[1] && toks[idx + 2] == w[2];
    }
  }

  // ---------------------------------------------------------------------------
  // Rendering then parsing gives back the tree

  /** An expression's tokens, placed at `idx` and followed by anything but `+`,
      parse back to the same expression and stop right after it. */
  lemma {:induction false} ParseExprTokens(e: Expr, toks: seq<Token>, idx: nat)
    requires WellFormedExpr(e)
    requires TokensAt(toks, idx, ExprTokens(e))
    requires !PeekIs(toks, idx + |ExprTokens(e)|, 0, Plus)
    ensures ParseExpr(toks, idx) == Match(e, idx + |ExprTokens(e)|)
  {
    match e
    case ExprTerm(t) =>
    case ExprBin(Add(l, rhs)) =>
      TokensAtConcat(toks, idx, ExprTokens(l) + [Bare(Plus)], ExprTokens(rhs));
      TokensAtConcat(toks, idx, ExprTokens(l), [Bare(Plus)]);
      assert |ExprTokens(l)| == 1;
      ParseExprTokens(rhs, toks, idx + 2);
  }

  lemma ParseStmtTokens(s: Stmt, toks: seq<Token>, idx: nat)
    requires WellFormedStmt(s)
    requires TokensAt(toks, idx, StmtTokens(s))
    ensures ParseStmt(toks, idx) == Match(s, idx + |StmtTokens(s)|)
  {
    match s
    case StmtExit(e) => ParseExitTokens(e, toks, idx);
    case StmtLet(id, e) => ParseLetTokens(id, e, toks, idx);
  }

  lemma ParseExitTokens(e: Expr, toks: seq<Token>, idx: nat)
    requires WellFormedExpr(e)
    requires TokensAt(toks, idx, StmtTokens(StmtExit(e)))
    ensures ParseStmt(toks, idx) == Match(StmtExit(e), idx + |StmtTokens(StmtExit(e))|)
  {
    var j := idx + 2 + |ExprTokens(e)|;
    ExitTokensAt(e, toks, idx);
    ParseExprTokens(e, toks, idx + 2);
    ParseExitStmt(toks, idx, e, j);
  }

  /** Where each token of a rendered `exit` sits. */
  lemma ExitTokensAt(e: Expr, toks: seq<Token>, idx: nat)
    requires TokensAt(toks, idx, StmtTokens(StmtExit(e)))
    ensures var j := idx + 2 + |ExprTokens(e)|;
      && j + 2 <= |toks| && |StmtTokens(StmtExit(e))| == j + 2 - idx
      && toks[idx].kind == Exit && toks[idx + 1].kind == OpenParen
      && TokensAt(toks, idx + 2, ExprTokens(e))
      && toks[j].kind == CloseParen && toks[j + 1].kind == Semi
  {
    var a, x, b := [Bare(Exit), Bare(OpenParen)], ExprTokens(e), [Bare(CloseParen), Bare(Semi)];
    assert StmtTokens(StmtExit(e)) == a + x + b;
    TokensAtConcat(toks, idx, a + x, b);
    TokensAtConcat(toks, idx, a, x);
    Tokens2At(toks, idx, Bare(Exit), Bare(OpenParen));
    Tokens2At(toks, idx + 2 + |x|, Bare(CloseParen), Bare(Semi));
  }

  lemma ParseLetTokens(id: Token, e: Expr, toks: seq<Token>, idx: nat)
    requires id.kind == Ident && WellFormedExpr(e)
    requires TokensAt(toks, idx, StmtTokens(StmtLet(id, e)))
    ensures ParseStmt(toks, idx) == Match(StmtLet(id, e), idx + |StmtTokens(StmtLet(id, e))|)
  {
    var j := idx + 3 + |ExprTokens(e)|;
    LetTokensAt(id, e, toks, idx);
    ParseExprTokens(e, toks, idx + 3);
    ParseLetStmt(toks, idx, id, e, j);
  }

  /** Where each token of a rendered `let` sits. */
  lemma LetTokensAt(id: Token, e: Expr, toks: seq<Token>, idx: nat)
    requires TokensAt(toks, idx, StmtTokens(StmtLet(id, e)))
    ensures var j := idx + 3 + |ExprTokens(e)|;
      && j + 1 <= |toks| && |StmtTokens(StmtLet(id, e))| == j + 1 - idx
      && toks[idx].kind == Let && toks[idx + 1] == id && toks[idx + 2].kind == Eq
      && TokensAt(toks, idx + 3, ExprTokens(e))
      && toks[j].kind == Semi
  {
    var a, x, b := [Bare(Let), id, Bare(Eq)], ExprTokens(e), [Bare(Semi)];
    assert StmtTokens(StmtLet(id, e)) == a + x + b;
    TokensAtConcat(toks, idx, a + x, b);
    TokensAtConcat(toks, idx, a, x);
    Tokens3At(toks, idx, Bare(Let), id, Bare(Eq));
  }

  /** `exit ( e ) ;` where `e` ends at `j`. */
  lemma ParseExitStmt(toks: seq<Token>, idx: nat, e: Expr, j: nat)
    requires idx + 2 <= j && j + 2 <= |toks|
    requires toks[idx].kind == Exit && toks[idx + 1].kind == OpenParen
    requires ParseExpr(toks, idx + 2) == Match(e, j)
    requires toks[j].kind == CloseParen && toks[j + 1].kind == Semi
    ensures ParseStmt(toks, idx) == Match(StmtExit(e), j + 2)
  {
    assert ExitAhead(toks, idx);
    assert ParseStmtTail(toks, j, true, StmtExit(e)) == Match(StmtExit(e), j + 2);
  }

  /** `let id = e ;` where `e` ends at `j`. */
  lemma ParseLetStmt(toks: seq<Token>, idx: nat, id: Token, e: Expr, j: nat)
    requires idx + 3 <= j && j + 1 <= |toks|
    requires toks[idx].kind == Let && toks[idx + 1] == id && id.kind == Ident && toks[idx + 2].kind == Eq
    requires ParseExpr(toks, idx + 3) == Match(e, j)
    requires toks[j].kind == Semi
    ensures ParseStmt(toks, idx) == Match(StmtLet(id, e), j + 1)
  {
    assert !ExitAhead(toks, idx) && LetAhead(toks, idx);
    assert ParseStmtTail(toks, j, false, StmtLet(id, e)) == Match(StmtLet(id, e), j + 1);
  }

  lemma {:induction false} ParseStmtsTokens(stmts: seq<Stmt>, toks: seq<Token>, idx: nat)
    requires WellFormedStmts(stmts)
    requires TokensAt(toks, idx, ProgTokens(stmts)) && idx + |ProgTokens(stmts)| == |toks|
    ensures ParseStmts(toks, idx) == Ok((stmts, |toks|))
    decreases |stmts|
  {
    if |stmts| == 0 {
      ParseStmtsAtEnd(toks, idx);
    } else {
      SplitFirstStmtTokens(stmts, toks, idx);
      ParseStmtsTokens(stmts[1..], toks, idx + |StmtTokens(stmts[0])|);
      ParseStmtsStepTokens(stmts, toks, idx);
    }
  }

  /** With no tokens left the loop stops at once. */
  lemma ParseStmtsAtEnd(toks: seq<Token>, idx: nat)
    requires idx == |toks|
    ensures ParseStmts(toks, idx) == Ok(([], |toks|))
  {
    assert Peek(toks, idx, 0).None?;
  }

  /** A rendered list is its first statement's tokens followed by the rest's. */
  lemma SplitFirstStmtTokens(stmts: seq<Stmt>, toks: seq<Token>, idx: nat)
    requires |stmts| != 0 && WellFormedStmts(stmts)
    requires TokensAt(toks, idx, ProgTokens(stmts)) && idx + |ProgTokens(stmts)| == |toks|
    ensures var n := |StmtTokens(stmts[0])|;
      && WellFormedStmt(stmts[0]) && TokensAt(toks, idx, StmtTokens(stmts[0]))
      && WellFormedStmts(stmts[1..])
      && TokensAt(toks, idx + n, ProgTokens(stmts[1..])) && idx + n + |ProgTokens(stmts[1..])| == |toks|
  {
    TokensAtConcat(toks, idx, StmtTokens(stmts[0]), ProgTokens(stmts[1..]));
    assert WellFormedStmts(stmts[1..]) by {
      assert forall i :: 0 <= i < |stmts| - 1 ==> stmts[1..][i] == stmts[i + 1];
    }
  }

  /** The first rendered statement parses back, and the loop goes on after it. */
  lemma ParseStmtsStepTokens(stmts: seq<Stmt>, toks: seq<Token>, idx: nat)
    requires |stmts| != 0 && WellFormedStmt(stmts[0]) && TokensAt(toks, idx, StmtTokens(stmts[0]))
    requires ParseStmts(toks, idx + |StmtTokens(stmts[0])|) == Ok((stmts[1..], |toks|))
    ensures ParseStmts(toks, idx) == Ok((stmts, |toks|))
  {
    var n := |StmtTokens(stmts[0])|;
    StmtTokensFit(stmts[0], toks, idx);
    ParseStmtTokens(stmts[0], toks, idx);
    ParseStmtsFirst(toks, idx, stmts, idx + n);
  }

  lemma StmtTokensFit(s: Stmt, toks: seq<Token>, idx: nat)
    requires TokensAt(toks, idx, StmtTokens(s))
    ensures 0 < |StmtTokens(s)| && idx + |StmtTokens(s)| <= |toks|
  {
  }

  /** The first statement parses, and the loop goes on after it. */
  lemma ParseStmtsFirst(toks: seq<Token>, idx: nat, stmts: seq<Stmt>, next: nat)
    requires |stmts| != 0 && idx < next <= |toks|
    requires ParseStmt(toks, idx) == Match(stmts[0], next)
    requires ParseStmts(toks, next) == Ok((stmts[1..], |toks|))
    ensures ParseStmts(toks, idx) == Ok((stmts, |toks|))
  {
    ParseStmtsCons(toks, idx, stmts[0], stmts[1..], next);
    assert [stmts[0]] + stmts[1..] == stmts;
  }

  /** One turn of `parse_prog`'s loop. */
  lemma ParseStmtsCons(toks: seq<Token>, idx: nat, s: Stmt, rest: seq<Stmt>, next: nat)
    requires idx < next <= |toks|
    requires ParseStmt(toks, idx) == Match(s, next)
    requires ParseStmts(toks, next) == Ok((rest, |toks|))
    ensures ParseStmts(toks, idx) == Ok(([s] + rest, |toks|))
  {
    assert Peek(toks, idx, 0).Some?;
  }

  /** Round trip: a program of the shapes the parser builds, rendered to tokens,
      parses back to itself. */
  lemma ParseUnparse(p: Prog)
    requires WellFormedProg(p)
    ensures ParseProg(ProgTokens(p.stmts)) == Ok(p)
  {
    var toks := ProgTokens(p.stmts);
    TokensAtPointwise(toks, 0, toks);
    ParseStmtsTokens(p.stmts, toks, 0);
    assert ParseStmts(toks, 0) == Ok((p.stmts, |toks|));
  }

  // ---------------------------------------------------------------------------
  // Parsing then rendering gives back the tokens

  lemma {:induction false} ExprTokensOfParse(toks: seq<Token>, idx: nat)
    requires idx <= |toks| && Canonical(toks)
    requires ParseExpr(toks, idx).Match?
    ensures TokensAt(toks, idx, ExprTokens(ParseExpr(toks, idx).node))
    ensures idx + |ExprTokens(ParseExpr(toks, idx).node)| == ParseExpr(toks, idx).next
    decreases |toks| - idx
  {
    var t := ParseTerm(toks, idx);
    match TryConsume(toks, t.next, Plus)
    case None =>
    case Some((_, j)) =>
      var r := ParseExpr(toks, j);
      ExprTokensOfParse(toks, j);
      assert toks[idx + 1] == Bare(Plus);
      Tokens2At(toks, idx, toks[idx], Bare(Plus));
      TokensAtConcat(toks, idx, [toks[idx]] + [Bare(Plus)], ExprTokens(r.node));
      assert [toks[idx]] + [Bare(Plus)] == [toks[idx], Bare(Plus)];
  }

  lemma StmtTokensOfParse(toks: seq<Token>, idx: nat)
    requires idx < |toks| && Canonical(toks)
    requires ParseStmt(toks, idx).Match?
    ensures TokensAt(toks, idx, StmtTokens(ParseStmt(toks, idx).node))
    ensures idx + |StmtTokens(ParseStmt(toks, idx).node)| == ParseStmt(toks, idx).next
  {
    var r := ParseStmt(toks, idx);
    ParseStmtShape(toks, idx);
    if r.node.StmtExit? {
      ExitTokensOfParse(toks, idx, r.node.expr, r.next);
    } else {
      LetTokensOfParse(toks, idx, r.node.ident, r.node.expr, r.next);
    }
  }

  lemma ExitTokensOfParse(toks: seq<Token>, idx: nat, e: Expr, next: nat)
    requires idx + 1 < |toks| && Canonical(toks) && idx + 4 <= next <= |toks|
    requires toks[idx].kind == Exit && toks[idx + 1].kind == OpenParen
    requires ParseExpr(toks, idx + 2) == Match(e, next - 2)
    requires toks[next - 2].kind == CloseParen && toks[next - 1].kind == Semi
    ensures TokensAt(toks, idx, StmtTokens(StmtExit(e)))
    ensures idx + |StmtTokens(StmtExit(e))| == next
  {
    ExprTokensOfParse(toks, idx + 2);
    BareAt(toks, idx, Exit);
    BareAt(toks, idx + 1, OpenParen);
    BareAt(toks, next - 2, CloseParen);
    BareAt(toks, next - 1, Semi);
    Tokens2At(toks, idx, Bare(Exit), Bare(OpenParen));
    Tokens2At(toks, next - 2, Bare(CloseParen), Bare(Semi));
    TokensAt3(toks, idx, [Bare(Exit), Bare(OpenParen)], ExprTokens(e), [Bare(CloseParen), Bare(Semi)]);
  }

  lemma LetTokensOfParse(toks: seq<Token>, idx: nat, id: Token, e: Expr, next: nat)
    requires idx + 2 < |toks| && Canonical(toks) && idx + 5 <= next <= |toks|
    requires toks[idx].kind == Let && toks[idx + 1] == id && toks[idx + 2].kind == Eq
    requires ParseExpr(toks, idx + 3) == Match(e, next - 1)
    requires toks[next - 1].kind == Semi
    ensures TokensAt(toks, idx, StmtTokens(StmtLet(id, e)))
    ensures idx + |StmtTokens(StmtLet(id, e))| == next
  {
    ExprTokensOfParse(toks, idx + 3);
    BareAt(toks, idx, Let);
    BareAt(toks, idx + 2, Eq);
    BareAt(toks, next - 1, Semi);
    Tokens3At(toks, idx, Bare(Let), id, Bare(Eq));
    assert TokensAt(toks, next - 1, [Bare(Semi)]);
    TokensAt3(toks, idx, [Bare(Let), id, Bare(Eq)], ExprTokens(e), [Bare(Semi)]);
  }

  /** In canonical tokens, a keyword or punctuation token is the bare token. */
  lemma BareAt(toks: seq<Token>, i: nat, kind: TokenType)
    requires Canonical(toks) && i < |toks| && toks[i].kind == kind && kind !in {IntLit, Ident}
    ensures toks[i] == Bare(kind)
  {
  }

  lemma TokensAt3(toks: seq<Token>, idx: nat, a: seq<Token>, x: seq<Token>, b: seq<Token>)
    requires TokensAt(toks, idx, a) && TokensAt(toks, idx + |a|, x) && TokensAt(toks, idx + |a| + |x|, b)
    ensures TokensAt(toks, idx, a + x + b)
  {
    TokensAtConcat(toks, idx, a, x);
    TokensAtConcat(toks, idx, a + x, b);
  }

  lemma {:induction false} ProgTokensOfParse(toks: seq<Token>, idx: nat)
    requires idx <= |toks| && Canonical(toks)
    requires ParseStmts(toks, idx).Ok?
    ensures TokensAt(toks, idx, ProgTokens(ParseStmts(toks, idx).value.0))
    ensures idx + |ProgTokens(ParseStmts(toks, idx).value.0)| == |toks|
    decreases |toks| - idx
  {
    if idx < |toks| {
      ParseStmtsStep(toks, idx);
      var s := ParseStmt(toks, idx);
      StmtTokensOfParse(toks, idx);
      ProgTokensOfParse(toks, s.next);
      ProgTokensCons(toks, idx, s.node, ParseStmts(toks, s.next).value.0, s.next);
    }
  }

  /** A statement's tokens followed by the rest's are the tokens of the list. */
  lemma ProgTokensCons(toks: seq<Token>, idx: nat, st: Stmt, rest: seq<Stmt>, next: nat)
    requires TokensAt(toks, idx, StmtTokens(st)) && idx + |StmtTokens(st)| == next
    requires TokensAt(toks, next, ProgTokens(rest)) && next + |ProgTokens(rest)| == |toks|
    ensures TokensAt(toks, idx, ProgTokens([st] + rest)) && idx + |ProgTokens([st] + rest)| == |toks|
  {
    ProgTokensConsEq(st, rest);
    TokensAtConcat(toks, idx, StmtTokens(st), ProgTokens(rest));
  }

  lemma ProgTokensConsEq(st: Stmt, rest: seq<Stmt>)
    ensures ProgTokens([st] + rest) == StmtTokens(st) + ProgTokens(rest)
  {
    assert ([st] + rest)[1..] == rest;
  }

  /** A successful loop from a cursor with tokens left parsed one statement and
      then the rest. */
  lemma ParseStmtsStep(toks: seq<Token>, idx: nat)
    requires idx < |toks| && ParseStmts(toks, idx).Ok?
    ensures ParseStmt(toks, idx).Match?
    ensures ParseStmts(toks, ParseStmt(toks, idx).next).Ok?
    ensures ParseStmts(toks, idx).value.0 ==
      [ParseStmt(toks, idx).node] + ParseStmts(toks, ParseStmt(toks, idx).next).value.0
  {
    assert Peek(toks, idx, 0).Some?;
  }

  /** Round trip the other way: when keywords and punctuation carry no payload, a
      successful parse loses nothing, so rendering the program gives back exactly
      the input tokens. */
  lemma UnparseParse(toks: seq<Token>)
    requires Canonical(toks)
    requires ParseProg(toks).Ok?
    ensures ProgTokens(ParseProg(toks).value.stmts) == toks
  {
    ProgTokensOfParse(toks, 0);
    var w := ProgTokens(ParseProg(toks).value.stmts);
    TokensAtPointwise(toks, 0, w);
    assert forall k :: 0 <= k < |w| ==> toks[k] == w[k] by {
      forall k | 0 <= k < |w| ensures toks[k] == w[k] {
        assert toks[0 + k] == w[k];
      }
    }
  }
}
